=== FILE: README.md ===
# Particle demos: a verified model of the particle-system core

This project models the particle logic shared by eight small Ebiten demos: amazing, fireworks, animation3, smoke, advanced.particles, Concert, bubbles and NewParticles. The demos repeat one small engine with variations. The model covers that engine:

- **Fixed-capacity pool.** Particle records are prefilled inactive. `allocateParticle` scans for the first inactive slot. smoke's variant grows lazily up to capacity.
- **Per-particle lifecycle.** The pooled demos count `lifetime` up and deactivate at `maxLife`. The compacting demos count `life` down and keep a particle while `life > 0`.
- **Spawn policies.** These are:
  - amazing's burst without early exit and its per-emitter and per-frame caps;
  - fireworks' rate-driven emitter;
  - the explosion loops that break on exhaustion;
  - smoke's single coin-flip spawn;
  - the even-tick, capacity-bounded spawns of the compacting demos.
- **In-place compaction.** A write cursor compacts the survivors of `update`.
- **Depth handling.**
  - Camera rotation and near-clip projection.
  - The depth-fade floor and the alpha clamp.
  - animation3's exchange sort by z, and the far-to-near `sort.Slice`.
  - bubbles' byte-alpha skip.
- **Batch builder.** Each drawn particle adds four vertices and six `uint16` indices `v, v+1, v+2, v+1, v+3, v+2` to its pass's buffer. fireworks partitions the particles into a fire pass and a smoke pass.
- **Fade envelopes and colour ramps.** Smoke fade-in and fade-out, fire fade, Concert's `depthColor`, and NewParticles' life-scaled alpha.

Modelling conventions:

- **Random draws** are inputs. A `rand.Intn(n)` result is a parameter that must lie in `[0, n)`. Each constructor takes a `Draw` record of its rolls.
- **Floating point and trigonometry.** Float values, including the results of `sin` and `cos`, are reals. The camera's sines and cosines are parameters.
- **Integer conversions.** Go's `uint16` and `uint8` conversions are written out as wrap-arounds (`Common.ToU16`, `Common.ToU8`).
- **Pointers.** A slot index stands for a returned `*Particle` pointer. `None` stands for `nil`.
- **State.** Every operation is a pure function or a method over immutable sequences.

Modules:

| module | models |
|---|---|
| `Common` | `Option`, vectors, RGBA, integer wraps, the "present values of a sequence of options" helper |
| `Pool` | particle record, prefill, scan allocation, guarded spawn, bursts, explosion loop |
| `Lifecycle` | `update` of the pooled demos, bounds recycling, the update pass, frame invariant |
| `Spawning` | amazing, fireworks and animation3/Concert constructors, emitters, spawn caps, explosions |
| `GrowingPool` | smoke's lazily growing pool and its per-tick spawn |
| `Countdown` | `life--` particles of advanced.particles, bubbles and NewParticles; compaction; spawning; per-demo `Update` |
| `Projection` | yaw/pitch rotation and the perspective projection with near clip |
| `Depth` | depth fade, alpha clamp, draw-item collection, far-to-near sort, byte-alpha skip |
| `Envelopes` | smoke, fire and NewParticles alpha; Concert depth colour |
| `ZOrder` | animation3's active-particle list and exchange sort by z |
| `Batch` | quad vertex/index fill, one-pass and two-pass (fire/smoke) batches, index well-formedness |

## Model

| member | source | states |
|---|---|---|
| Common.ToU16 | amazing.main.go:404 | `uint16(n)` lands in [0, 65536), differs from `n` by a multiple of 65536 (it keeps the low 16 bits), and is the identity on values already in range |
| Pool.Prefill | amazing.main.go:147-149 | the prefilled pool has exactly `maxParticles` slots, none of them active, all free, and it satisfies the pool invariant |
| Pool.EmptyIffNoneActive | amazing.main.go:147-149 | a pool has active count 0 exactly when no slot is active |
| Pool.FirstInactive | amazing.main.go:190-197 | the reference scan yields nothing exactly when every slot is active, and otherwise the first inactive slot |
| Pool.AllocateParticle | amazing.main.go:190-197 | the allocator returns nil exactly when every slot is active, and otherwise the lowest-indexed inactive slot (the reference scan's answer) |
| Pool.FullIffAllActive | amazing.main.go:190-197 | the active count equals the pool size exactly when every slot is active, so allocation fails exactly when the pool is full |
| Pool.SpawnInto | amazing.main.go:199-203 | a guarded spawn leaves a full pool unchanged and otherwise overwrites exactly the first inactive slot; the pool size never changes |
| Pool.ActivateSlotCount | amazing.main.go:201-203 | activating one inactive slot raises the active count by exactly one |
| Pool.SpawnIntoCount | amazing.main.go:199-203 | one guarded spawn raises the active count by one if a slot was free and by zero otherwise |
| Pool.BurstActivates | amazing.main.go:232-236 | a burst of n spawn calls activates exactly min(n, free slots) particles |
| Pool.BurstIntoFullPool | amazing.main.go:232-236 | spawn calls after the pool is exhausted are no-ops, however many are made |
| Pool.BurstSplit | amazing.main.go:232-236 | a burst of a+b calls equals a burst of a calls followed by a burst of b calls |
| Pool.BurstKeepsActive | amazing.main.go:232-236 | a burst never overwrites a live particle, and each slot it changes holds one of the spawned particles |
| Pool.SpawnExplosion | fireworks.main.go:253-267 | the loop that breaks at the first nil allocation yields the same pool as the burst with no early exit, and activates min(n, free slots) particles |
| Pool.ActiveCountMonotone | amazing.main.go:327-335 | if no slot became active, the active count has not grown |
| Lifecycle.Update | amazing.main.go:85-112 | an inactive particle is untouched; otherwise lifetime rises by one and the particle stays active exactly when lifetime+1 < maxLife; a particle that deactivates does not move; a surviving particle moves by its velocity and turns by its spin; `active ⇒ 0 ≤ lifetime < maxLife` is preserved |
| Lifecycle.StepSlot | amazing.main.go:327-335 | after the update and the off-screen check, a still-active particle lies inside the demo's bounds; a particle that was deactivated either reached maxLife or left the bounds; the lifecycle invariant is preserved |
| Lifecycle.UpdatePool | fireworks.main.go:241-249 | the update pass keeps the pool size, leaves inactive slots unchanged, leaves every active particle inside the bounds, and preserves the pool invariant for any capacity |
| Lifecycle.UpdatePoolNeverActivates | animation3.main.go:161-165 | the update pass never raises the active count |
| Lifecycle.PooledFrameInvariant | Concert.main.go:164-176 | a whole frame (spawns, then the update pass) keeps the pool at its capacity with every active particle inside 0 ≤ lifetime < maxLife, if the spawned particles start that way; it ends with at most the particles it started with plus min(spawn calls, free slots) |
| Spawning.AmazingParticle | amazing.main.go:199-228 | a spawned particle is active with lifetime 0 and the requested kind, maxLife is in [30,79] for fire and [120,319] for embers |
| Spawning.SpawnAt | amazing.main.go:199-230 | with an exhausted pool nothing changes; otherwise exactly the first inactive slot is reset to a fresh particle of the given kind |
| Spawning.SpawnBurst | amazing.main.go:232-236 | a click burst of n fire particles raises the active count by exactly min(n, free slots) and leaves a full pool unchanged |
| Spawning.CapTarget | amazing.main.go:306-308 | a capped target is at most 250, never above the raw target, and unchanged when the target is already at most 250 |
| Spawning.BudgetedAttempts | amazing.main.go:309-315 | the reference count of spawn attempts has one entry per emitter, and the entries sum to at most `spawnPerFrame` (200) |
| Spawning.BudgetedAttemptsCapped | amazing.main.go:306-315 | no emitter attempts more spawns than its capped target |
| Spawning.BudgetedAttemptsShortfall | amazing.main.go:309-315 | an emitter falls short of its capped target only if the frame's 200-spawn budget is used up |
| Spawning.BudgetedAttemptsStop | amazing.main.go:309-315 | once one emitter falls short, every later emitter in the frame spawns nothing |
| Spawning.EmitterRun | amazing.main.go:309-315 | one emitter's inner loop runs min(max(0, target), 200 − spent) times |
| Spawning.EmitterSpawnCounts | amazing.main.go:290-315 | the emitter loop makes exactly the reference number of attempts per emitter, and at most 200 in total |
| Spawning.FireworksParticle | fireworks.main.go:142-180 | a new particle is active with lifetime 0; smoke has maxLife in [240,299] and channels in [0xc0,0xfe]; fire has maxLife in [45,74] and the fixed orange colour |
| Spawning.EmitterSpawn | fireworks.main.go:126-140 | the counter always rises by one; a rate ≤ 0 becomes 1; the pool changes only when counter % rate == 0, and then exactly min(2, free slots) particles become active |
| Spawning.FireworksBlast | fireworks.main.go:253-267 | the k-th particle an explosion at (x, y) tries to place is the fire particle `newParticle` builds at (x, y) from the k-th draw |
| Spawning.FireworksExplosion | fireworks.main.go:253-267 | a click activates exactly min(500, free slots) fire particles, never overwrites a live one, and each changed slot holds a fresh fire particle; the pool is exactly the burst of the blast particles built at (x, y) from the draws, placed in call order into the first free slots |
| Spawning.DepthFireParticle | animation3.main.go:121-139 | a new fire particle is active with lifetime 0 and maxLife in [40,79] |
| Spawning.DepthBlast | animation3.main.go:142-151 | the k-th particle an explosion at (x, y) tries to place is the fire particle `newFireParticle` builds at (x, y) from the k-th draw |
| Spawning.DepthExplosion | animation3.main.go:142-151 | a click activates exactly min(600, free slots) particles, never overwrites a live one, and each changed slot holds a fresh particle; the pool is exactly the burst of the blast particles built at (x, y) from the draws, placed in call order into the first free slots |
| GrowingPool.SmokeParticle | smoke.main.go:72-108 | a new particle is active with lifetime 0 at the emitter, with maxLife in [240,299] and each channel in [0xc0,0xfe] |
| GrowingPool.AppendBlankCount | smoke.main.go:130-134 | appending a zero-valued slot leaves the active count unchanged |
| GrowingPool.AllocateOrGrow | smoke.main.go:123-136 | the first inactive slot is reused if there is one; otherwise one blank slot is appended while below capacity, else nil; the slice never exceeds capacity and existing slots are kept |
| GrowingPool.SmokeSpawn | smoke.main.go:123-154 | a spawn happens only when the coin allows and the slice is below capacity; it then writes `newParticle` at the emitter into the first inactive slot, or appends it when every slot is live, so exactly one particle becomes active, live ones are untouched and the slice stays within capacity |
| GrowingPool.SmokeUpdate | smoke.main.go:138-166 | one tick is exactly the spawn step followed by the force-free update pass over the spawned slice; it grows the slice by at most one, stays within capacity, adds at most one active particle, and preserves the lifecycle invariant |
| Countdown.Update | advanced.particles.main.go:96-112 | `life` falls by exactly one and the particle survives exactly when the new life is positive; it moves by its velocity, turns by its spin, and keeps its colour and size |
| Countdown.Outcome | advanced.particles.main.go:184-187 | one step of the compaction keeps the updated particle exactly when life > 1 |
| Countdown.Survivors | advanced.particles.main.go:182-189 | the compacted slice is no longer than the original and holds only particles with positive life |
| Countdown.SurvivorsArePresent | advanced.particles.main.go:182-189 | the survivors are exactly the kept outcomes of the particle-by-particle updates, in order |
| Countdown.SurvivorsExactly | advanced.particles.main.go:182-189 | compaction keeps exactly the particles whose update returned true, as their updated values, in their original relative order |
| Countdown.SurvivorsKeep | advanced.particles.main.go:182-189 | compaction preserves well-formedness and a positive maxLife of every particle |
| Countdown.UpdateAndCompact | advanced.particles.main.go:182-189 | the write-cursor loop produces exactly the survivors |
| Countdown.Spawn | advanced.particles.main.go:164-168 | `spawn(n)` appends the first min(n, capacity − len) newcomers and never grows the slice past capacity |
| Countdown.CloudMote | advanced.particles.main.go:60-94 | a new particle starts with life == maxLife in [80,239], and its red and green are in [180,239] with blue and alpha 255 |
| Countdown.CloudMotes | advanced.particles.main.go:164-167 | a batch of new particles is well-formed, one per draw |
| Countdown.AdvancedUpdate | advanced.particles.main.go:170-197 | one tick advances `tick` by one, keeps the cloud within 1200 particles and well-formed, and leaves at least 40 particles; the result is the survivors of the spawn phase (8 newcomers up to 1200 on even ticks, none on odd ones), followed by all 40 refill particles exactly when fewer than 400 survived |
| Countdown.RefillFits | advanced.particles.main.go:192-194 | below 400 survivors `spawn(40)` is never cut short by the 1200 cap, and appending the refill keeps the slice well formed |
| Countdown.BubbleMote | bubbles.main.go:34-64 | a new bubble starts with life == maxLife in [100,219], and its red and green are in [180,249] with blue and alpha 255 |
| Countdown.BubbleMotes | bubbles.main.go:104-108 | a batch of new bubbles is well-formed, one per draw |
| Countdown.BubblesUpdate | bubbles.main.go:110-127 | one tick advances `tick` by one, keeps the slice within 1200 and well-formed, and leaves only positive lives; the result is exactly the survivors of the spawn phase, which adds 8 newcomers up to 1200 on even ticks and nothing on odd ones |
| Countdown.RingMote | NewParticles.main.go:49-66 | a new particle starts at the screen centre with life and maxLife each in [60,179], spin 0.01, red and green in [200,254] |
| Countdown.RingLifeCanExceedMaxLife | NewParticles.main.go:61-62 | because life and maxLife are drawn independently, some particle starts with life > maxLife |
| Countdown.RingMotes | NewParticles.main.go:110-112 | a batch of new particles all have positive life and positive maxLife |
| Countdown.RingUpdate | NewParticles.main.go:107-126 | one tick advances `tick` by one, keeps the count within 800 + 4, and leaves only positive lives; below 800 on an even tick the result is exactly the survivors of the slice with the 5 new particles appended, otherwise exactly the survivors of the old slice |
| Projection.Rotate | advanced.particles.main.go:117-128 | for a camera with unit sine/cosine pairs, rotating by yaw then pitch preserves the squared distance from the origin |
| Projection.PlaneRotationKeepsNorm | advanced.particles.main.go:119-122 | a plane rotation by a unit (sin, cos) pair preserves a² + b² |
| Projection.Project | advanced.particles.main.go:116-155 | the depth is the rotated z plus 600; the particle is visible exactly when depth > 10; when visible, the screen position and scale are the perspective division by that positive depth |
| Projection.NearOriginVisible | advanced.particles.main.go:130-136 | for a unit camera, every particle closer to the origin than 590 is visible |
| Depth.DepthFade | advanced.particles.main.go:222-225 | the depth fade is never below its floor, and equals either the floor or the linear ramp 1 − (depth − 200)/1200 |
| Depth.DepthFadeNonIncreasing | advanced.particles.main.go:222-225 | farther particles never fade less than nearer ones |
| Depth.DepthFadeAtFloor | bubbles.main.go:144-147 | the fade sits at its floor exactly from depth 200 + 1200·(1 − floor) on |
| Depth.LifeRatio | advanced.particles.main.go:220 | the life ratio times maxLife is life, and it lies in (0,1] while 0 < life ≤ maxLife |
| Depth.ItemFor | advanced.particles.main.go:214-235 | a particle yields a draw item exactly when it projects as visible; the item's depth is the projected depth, its alpha is life ratio × depth fade (positive for a well-formed particle), and its colour is the particle's |
| Depth.CollectItems | advanced.particles.main.go:211-236 | the collected items are no more than the particles, all beyond the near clip, with positive alpha for well-formed particles |
| Depth.CollectItemsExactly | advanced.particles.main.go:214-236 | the items are exactly those of the visible particles, in particle order |
| Depth.InsertFarToNearPerm | advanced.particles.main.go:239-241 | inserting into the sorted list adds exactly the one item |
| Depth.InsertFarToNearSorted | advanced.particles.main.go:239-241 | inserting into a far-to-near list keeps it far-to-near |
| Depth.SortFarToNear | advanced.particles.main.go:239-241 | the sorted items are a permutation of the input in non-increasing depth order; tie order is not specified |
| Depth.Clamp01 | advanced.particles.main.go:258-263 | the clamped alpha lies in [0,1], equals the input inside it, and is 0 below and 1 above |
| Depth.Clamp01Monotone | advanced.particles.main.go:258-263 | the clamp is monotone and idempotent |
| Depth.ClampAlphas | advanced.particles.main.go:258-263 | every item keeps all its fields except alpha, which is clamped |
| Depth.ClampSortCommute | advanced.particles.main.go:239-263 | clamping alphas after the far-to-near sort gives the sort of the clamped items, since the clamp leaves depths alone |
| Depth.ClampedSortPerm | advanced.particles.main.go:239-263 | the sorted, clamped list is a permutation of the clamped items |
| Depth.CloudDrawList | advanced.particles.main.go:238-263 | advanced.particles draws one item per visible particle, in non-increasing depth order, each with alpha in [0,1] and depth beyond the near clip; as a multiset the list is exactly the visible particles' items with their alphas clamped |
| Depth.ByteAlpha | bubbles.main.go:158 | `uint8(255·alpha)` is a byte, and for alpha in [0,1] it is the floor of 255·alpha |
| Depth.SkipThreshold | bubbles.main.go:158-161 | for alpha in [0,1], a bubble is skipped exactly when alpha < 10/255 |
| Depth.KeepVisibleAlpha | bubbles.main.go:156-161 | the drawn items are no more than the sorted items, and each has byte alpha at least 10 |
| Depth.KeepVisibleAlphaMembers | bubbles.main.go:156-161 | the drawn items are exactly the sorted items whose byte alpha is at least 10 |
| Depth.KeepVisibleAlphaKeepsOrder | bubbles.main.go:154-161 | skipping faint items keeps the far-to-near order |
| Depth.KeepVisibleAlphaCount | bubbles.main.go:156-161 | the skip keeps every copy of an item whose byte alpha is at least 10 and no copy of any other item |
| Depth.KeepVisibleAlphaOfPerm | bubbles.main.go:138-161 | skipping over any permutation of the items keeps each item with byte alpha at least 10 and only items from the input, as often as the unsorted skip would |
| Depth.BubbleDrawList | bubbles.main.go:138-161 | bubbles draws items in non-increasing depth order, each beyond the near clip with byte alpha at least 10; every visible particle's item with byte alpha at least 10 is drawn, nothing else is, and each is drawn as often as it occurs among the visible items |
| Envelopes.LifeRate | fireworks.main.go:292 | for an active particle the rate lies in [0,1) and times maxLife gives lifetime |
| Envelopes.SmokeEnvelope | fireworks.main.go:295-304 | the smoke alpha lies in [0,1] for rate in [0,1]; it is 1 exactly on the plateau [0.2,0.8] and 0 exactly at rate 0 and 1 |
| Envelopes.SmokeEnvelopeRises | fireworks.main.go:299-300 | the smoke alpha never falls up to rate 0.8 |
| Envelopes.SmokeEnvelopeFalls | fireworks.main.go:301-302 | the smoke alpha never rises from rate 0.2 on |
| Envelopes.SmokeAlpha | smoke.main.go:196-204 | smoke's alpha lies in [0, baseAlpha] for rate in [0,1), and reaches baseAlpha exactly on the plateau |
| Envelopes.FireAlphaRange | fireworks.main.go:296-297 | a live fire particle's alpha 1 − rate² lies in (0,1], and is 1 at birth |
| Envelopes.FireAlphaFalls | fireworks.main.go:296-297 | fire alpha never rises as the particle ages |
| Envelopes.FireworksAlpha | fireworks.main.go:295-304 | every live particle's alpha lies in [0,1], and a live fire particle's is positive |
| Envelopes.DepthColor | Concert.main.go:147-162 | the depth colour has green 0 and red + blue = 1; it is pure blue at z ≤ −2, pure red at z ≥ 2, and red is (z+2)/4 in between |
| Envelopes.DepthColorMonotone | Concert.main.go:147-162 | nearer particles are never less red or more blue |
| Envelopes.RingAlpha | NewParticles.main.go:79-88 | nothing is drawn when life ≤ 0; otherwise the alpha is never negative and equals 0.6 × life/maxLife |
| Envelopes.RingAlphaCanExceedBase | NewParticles.main.go:84-85 | with life and maxLife drawn independently, the drawn alpha can exceed 0.6 |
| ZOrder.ActiveParticles | animation3.main.go:184-189 | the collected list has one entry per active slot, and holds active particles of the pool only |
| ZOrder.ActiveParticlesExactly | animation3.main.go:184-189 | entry k of the collected list is the particle of the k-th active slot in pool order: the slots listed are increasing and are exactly the active ones |
| ZOrder.Swap | animation3.main.go:193-195 | the swap exchanges two positions, leaves the rest, and keeps the multiset |
| ZOrder.ExchangeSortByZ | animation3.main.go:191-197 | the nested swap loop yields a permutation of its input in ascending z |
| ZOrder.DepthDrawOrder | animation3.main.go:184-197 | animation3 draws a permutation of the active particles, sorted ascending by z, containing every active particle |
| Batch.QuadVertices | amazing.main.go:407-423 | a quad's four vertices belong to its particle, in corner order top-left, bottom-left, top-right, bottom-right |
| Batch.QuadIndexAt | amazing.main.go:424 | the c-th index of a quad is `uint16(v + offset)` for the offsets 0,1,2,1,3,2 |
| Batch.AppendedIndicesAsWritten | amazing.main.go:424 | the six indices as written (`v := uint16(count)`, then `v+1` and so on in `uint16` arithmetic) are the quad's indices for that count |
| Batch.AppendQuad | amazing.main.go:404-424 | each drawn particle adds exactly 4 vertices and 6 indices |
| Batch.Quads | animation3.main.go:226-249 | a batch of k quads has 4k vertices and 6k indices |
| Batch.VertexOfQuad | animation3.main.go:226-247 | vertex 4k+e of a batch is corner e of the k-th drawn particle |
| Batch.IndexOfQuadWrapped | smoke.main.go:220-250 | index 6k+c of a batch is the c-th index of the quad starting at vertex 4k |
| Batch.IndexOfQuad | Concert.main.go:209-228 | when 4·(particles) fits in `uint16`, index 6k+c is exactly 4k + offset(c), with no wrap |
| Batch.QuadsIndicesOwnQuad | animation3.main.go:226-249 | every index is below the vertex count and names a vertex of its own quad's particle |
| Batch.SelectedSlotsExactly | fireworks.main.go:287-290 | the drawn slots are exactly the slots the pass selects, in increasing order |
| Batch.SelectedCounts | fireworks.main.go:287-291 | all-active selection draws every active particle, and the fire and smoke passes together draw exactly the active particles |
| Batch.DrawPooled | Concert.main.go:181-229 | reset buffers then one quad per active particle in pool order: 4 vertices and 6 indices per active particle, each vertex owned by an active slot |
| Batch.DrawFireworks | fireworks.main.go:273-358 | both buffer pairs are rebuilt from empty; fire particles go only to the fire buffers and the rest only to the smoke buffers, each starting at index 0, together 4 vertices and 6 indices per active particle |
| Batch.FireworksPartition | fireworks.main.go:319-357 | the fire and smoke buffers split the active particles: counts add up, and every vertex of each buffer is owned by a particle of that pass's kind |
| Batch.BatchIndicesWellFormed | fireworks.main.go:24 | for a pool of at most 16384 slots (40000 vertices for fireworks, 56000 for amazing), no index wraps: each names a vertex of its own selected particle's quad |

## Left out

- Ebiten plumbing is not modelled: `RunGame`, `DrawTriangles`, `DrawImage`, `DrawFilledCircle`, input polling, window setup and the HUD text. These are foreign calls; the mouse and keyboard triggers become the choice of which spawns happen in a frame.
- Texture loading and the `init` functions are not modelled. They are I/O and pixel maths.
- Random number generation is not modelled. Each draw is an input within the range the code states.
- Trigonometry and transcendental maths are not modelled: `sin`/`cos` of the emitter orbits and pulses, `Cbrt` and `Sqrt` in the sphere sampling, the `GeoM` transforms and vertex positions. Camera sines and cosines are parameters; velocities and offsets are free reals.
- The `math.Pow` alpha curves of amazing (`rate^1.4`), animation3 and Concert (`rate^1.5`) are not modelled, nor amazing's time-shifted `depthColor` and its depth scale. They are non-polynomial float curves. fireworks' `rate^2` is modelled as `rate*rate`.
- float32 rounding is not modelled: reals stand for `float64`/`float32` values. The only float→integer conversion modelled is the bubbles byte alpha.
- Vertex colour premultiplication and the texture source coordinates are not modelled; a vertex is identified by its owner and corner.
- The smoke emitter's drift (`emitterX += …`, `emitterY -= 0.1`) is not modelled. The emitter position is a parameter of each spawn.
- amazing's surprise bursts and click bursts inside `Update` are not modelled individually. They are `Pool.Burst` calls, and `Lifecycle.PooledFrame` takes the frame's spawns as one list.
- Overflow of the `int` tick and emitter counters is not modelled. They are unbounded naturals, which matches Go for any realistic run length.
- The animation3 draw loop over the sorted list is modelled by `Batch.Quads` over any list of owners. `Batch.DrawPooled` models the pool-order loop of amazing, smoke and Concert.
- mandelbrot.main.go, mandelbrotyes.main.go and physicsgame.main.go are not part of this model. They are escape-time rendering and rigid-body physics, not the particle core.
- Envelopes.FireAlphaRange: states the range of `1 − rate²` for a live particle, not the exact value at each rate.
- Depth.LifeRatio: requires maxLife > 0. Every constructor draws maxLife at least 60, and Go's float division by zero is not modelled.
- Depth.ItemFor: requires maxLife > 0, for the same reason.
- Envelopes.RingAlpha: requires maxLife != 0. NewParticles draws maxLife in [60,179].
- Envelopes.LifeRate: requires 0 ≤ lifetime < maxLife. The pooled demos compute it only for active particles, which keep that invariant.
- Depth.SortFarToNear: promises order and permutation, but not the order among equal depths, which `sort.Slice` leaves unspecified.

=== FILE: batch.dfy ===
/** The triangle batch every pooled demo builds in `Draw`: the buffers are emptied,
    then each drawn particle appends the four corners of its textured quad and the
    six `uint16` indices of the two triangles covering it,
    `v, v+1, v+2, v+1, v+3, v+2` with `v` the buffer's vertex count so far.
    Vertex positions and colours are float maths and are not modelled: a vertex is
    identified by the particle that owns it and the corner it is. */
module Batch {
  import opened Common
  import opened Pool

  /** Corner order of every demo: top-left, bottom-left, top-right, bottom-right. */
  datatype Corner = TopLeft | BottomLeft | TopRight | BottomRight

  const Corners: seq<Corner> := [TopLeft, BottomLeft, TopRight, BottomRight]

  /** A vertex: the pool slot of the particle it belongs to and which corner it is. */
  datatype Vertex = Vertex(owner: nat, corner: Corner)

  /** One vertex slice and its `uint16` index slice. */
  datatype Buffer = Buffer(vertices: seq<Vertex>, indices: seq<int>)

  /** `vertices[:0]`, `indices[:0]`: the state every frame starts from. */
  const Empty: Buffer := Buffer([], [])

  /** Offset of index `c` of a quad from its first vertex: the two triangles
      (0, 1, 2) and (1, 3, 2). */
  function QuadOffset(c: nat): (e: nat)
    requires c < 6
    ensures e < 4
  {
    [0, 1, 2, 1, 3, 2][c]
  }

  /** The four corner vertices of one particle's quad. */
  function QuadVertices(owner: nat): (r: seq<Vertex>)
    ensures |r| == 4 && forall c :: 0 <= c < 4 ==> r[c] == Vertex(owner, Corners[c])
  {
    [Vertex(owner, TopLeft), Vertex(owner, BottomLeft), Vertex(owner, TopRight), Vertex(owner, BottomRight)]
  }

  /** The six indices of a quad whose first vertex is number `v`, as `uint16`. */
  function QuadIndices(v: int): (r: seq<int>)
    ensures |r| == 6
  {
    [ToU16(v), ToU16(v + 1), ToU16(v + 2), ToU16(v + 1), ToU16(v + 3), ToU16(v + 2)]
  }

  /** Index `c` of a quad is its first vertex plus the offset of `c`, as `uint16`. */
  lemma QuadIndexAt(v: int, c: nat)
    requires c < 6
    ensures QuadIndices(v)[c] == ToU16(v + QuadOffset(c))
  {
  }

  /** One particle's quad appended to a buffer whose vertex count is `count`. */
  function AppendQuad(b: Buffer, owner: nat, count: int): (r: Buffer)
    ensures |r.vertices| == |b.vertices| + 4 && |r.indices| == |b.indices| + 6
  {
    Buffer(b.vertices + QuadVertices(owner), b.indices + QuadIndices(count))
  }

  /** The indices as the demos write them, `vIndex := uint16(count)` followed by
      `vIndex, vIndex+1, vIndex+2, vIndex+1, vIndex+3, vIndex+2` with each sum again
      a `uint16`, are the quad's indices `count + offset` wrapped once. */
  lemma AppendedIndicesAsWritten(count: int)
    ensures var v := ToU16(count);
            [v, ToU16(v + 1), ToU16(v + 2), ToU16(v + 1), ToU16(v + 3), ToU16(v + 2)]
              == QuadIndices(count)
  {
    WrapShift(count, 1);
    WrapShift(count, 2);
    WrapShift(count, 3);
  }

  /** Adding after a `uint16` wrap is the same as wrapping the sum. */
  lemma WrapShift(n: int, d: int)
    ensures ToU16(ToU16(n) + d) == ToU16(n + d)
  {
    var q := (n - ToU16(n)) / U16Limit;
    assert n == ToU16(n) + q * U16Limit;
    assert ToU16(n) + d == (n + d) - q * U16Limit;
  }

  /** The batch a frame builds for the particles in `owners`, in order. */
  function Quads(owners: seq<nat>): (r: Buffer)
    ensures |r.vertices| == 4 * |owners| && |r.indices| == 6 * |owners|
  {
    if |owners| == 0 then Empty
    else
      var n := |owners| - 1;
      AppendQuad(Quads(owners[..n]), owners[n], 4 * n)
  }

  /** Vertex 4k + e of the batch is corner e of the k-th drawn particle. */
  lemma {:induction false} VertexOfQuad(owners: seq<nat>, k: nat, e: nat)
    requires k < |owners| && e < 4
    ensures Quads(owners).vertices[4 * k + e] == Vertex(owners[k], Corners[e])
    decreases |owners|
  {
    var n := |owners| - 1;
    var b := Quads(owners[..n]);
    assert Quads(owners) == AppendQuad(b, owners[n], 4 * n);
    if k < n {
      VertexOfQuad(owners[..n], k, e);
      assert owners[..n][k] == owners[k];
      assert (b.vertices + QuadVertices(owners[n]))[4 * k + e] == b.vertices[4 * k + e];
    } else {
      assert (b.vertices + QuadVertices(owners[n]))[4 * k + e] == QuadVertices(owners[n])[e];
    }
  }

  /** Index 6k + c of the batch is index c of the k-th quad, whose first vertex is 4k. */
  lemma {:induction false} IndexOfQuadWrapped(owners: seq<nat>, k: nat, c: nat)
    requires k < |owners| && c < 6
    ensures Quads(owners).indices[6 * k + c] == QuadIndices(4 * k)[c]
    decreases |owners|
  {
    var n := |owners| - 1;
    var b := Quads(owners[..n]);
    assert Quads(owners) == AppendQuad(b, owners[n], 4 * n);
    if k < n {
      IndexOfQuadWrapped(owners[..n], k, c);
      assert (b.indices + QuadIndices(4 * n))[6 * k + c] == b.indices[6 * k + c];
    } else {
      assert (b.indices + QuadIndices(4 * n))[6 * k + c] == QuadIndices(4 * n)[c];
    }
  }

  /** Index `c` of quad `k`, when no index wraps, is vertex 4k plus the quad
      offset of `c`. */
  lemma {:induction false} IndexOfQuad(owners: seq<nat>, k: nat, c: nat)
    requires 4 * |owners| <= U16Limit
    requires k < |owners| && c < 6
    ensures Quads(owners).indices[6 * k + c] == 4 * k + QuadOffset(c)
  {
    IndexOfQuadWrapped(owners, k, c);
    QuadIndexAt(4 * k, c);
  }

  /** While four vertices per particle fit the `uint16` range, no index wraps: each
      index is below the vertex count and names a corner of its own particle's
      quad. */
  lemma QuadsIndicesOwnQuad(owners: seq<nat>)
    requires 4 * |owners| <= U16Limit
    ensures forall j :: 0 <= j < |Quads(owners).indices| ==>
              0 <= Quads(owners).indices[j] < |Quads(owners).vertices| &&
              Quads(owners).vertices[Quads(owners).indices[j]].owner == owners[j / 6]
  {
    var r := Quads(owners);
    forall j | 0 <= j < |r.indices|
      ensures 0 <= r.indices[j] < |r.vertices| && r.vertices[r.indices[j]].owner == owners[j / 6]
    {
      IndexOfQuad(owners, j / 6, j % 6);
      VertexOfQuad(owners, j / 6, QuadOffset(j % 6));
    }
  }

  /** Which particles a pass draws: every active one in the single pass of amazing,
      animation3, smoke and Concert; the active fire, or the active other particles,
      in fireworks' two passes. */
  datatype Selection = OnePass | FirePass | SmokePass

  predicate Selects(s: Selection, p: Particle) {
    match s
    case OnePass => p.active
    case FirePass => p.active && p.kind == Fire
    case SmokePass => p.active && p.kind != Fire
  }

  /** The slots a pass over the pool draws, in pool order. */
  function SelectedSlots(pool: seq<Particle>, s: Selection): (r: seq<nat>)
    ensures |r| <= |pool|
  {
    if |pool| == 0 then []
    else
      var n := |pool| - 1;
      SelectedSlots(pool[..n], s) + (if Selects(s, pool[n]) then [n] else [])
  }

  /** The selection lists, in increasing order, exactly the slots whose particle
      the pass draws. */
  lemma {:induction false} SelectedSlotsExactly(pool: seq<Particle>, s: Selection)
    ensures forall k :: 0 <= k < |SelectedSlots(pool, s)| ==>
              SelectedSlots(pool, s)[k] < |pool| && Selects(s, pool[SelectedSlots(pool, s)[k]])
    ensures forall k, l :: 0 <= k < l < |SelectedSlots(pool, s)| ==>
              SelectedSlots(pool, s)[k] < SelectedSlots(pool, s)[l]
    ensures forall i :: 0 <= i < |pool| ==> (Selects(s, pool[i]) <==> i in SelectedSlots(pool, s))
    decreases |pool|
  {
    if |pool| > 0 {
      var n := |pool| - 1;
      var init := pool[..n];
      SelectedSlotsExactly(init, s);
      assert forall i :: 0 <= i < n ==> init[i] == pool[i];
    }
  }

  /** Extending the pass by one slot extends the selection by that slot when it
      is selected. */
  lemma SelectedSnoc(pool: seq<Particle>, i: nat, s: Selection)
    requires i < |pool|
    ensures SelectedSlots(pool[..i + 1], s)
         == SelectedSlots(pool[..i], s) + (if Selects(s, pool[i]) then [i] else [])
  {
    assert pool[..i + 1][..i] == pool[..i];
  }

  /** Drawing one more particle appends its quad numbered after the ones before. */
  lemma {:induction false} QuadsSnoc(owners: seq<nat>, x: nat)
    ensures Quads(owners + [x]) == AppendQuad(Quads(owners), x, 4 * |owners|)
  {
    var o, n := owners + [x], |owners|;
    assert o[..n] == owners && o[n] == x;
    assert Quads(o) == AppendQuad(Quads(o[..n]), o[n], 4 * n);
  }

  /** The loop body of every draw pass: the quad of one more particle appended
      after the `count` vertices drawn so far. */
  method DrawOne(b: Buffer, owner: nat, count: int, ghost drawn: seq<nat>) returns (r: Buffer)
    requires b == Quads(drawn) && count == 4 * |drawn|
    ensures |r.vertices| == |b.vertices| + 4
    ensures r == Quads(drawn + [owner])
  {
    QuadsSnoc(drawn, owner);
    r := AppendQuad(b, owner, count);
  }

  /** A pass over all active particles draws `ActiveCount` of them, and the fire and
      non-fire passes split them between them. */
  lemma {:induction false} SelectedCounts(pool: seq<Particle>)
    ensures |SelectedSlots(pool, OnePass)| == ActiveCount(pool)
    ensures |SelectedSlots(pool, FirePass)| + |SelectedSlots(pool, SmokePass)| == ActiveCount(pool)
    decreases |pool|
  {
    if |pool| > 0 {
      SelectedCounts(pool[..|pool| - 1]);
    }
  }

  /** The draw pass of amazing, animation3, smoke and Concert: reset the buffers,
      then append one quad per active particle in pool order with `v` the running
      vertex count. Whatever the buffer held before, the result is the batch of the
      active slots: 4 vertices and 6 indices per active particle. */
  method DrawPooled(reused: Buffer, pool: seq<Particle>) returns (b: Buffer)
    ensures |b.vertices| == 4 * ActiveCount(pool) && |b.indices| == 6 * ActiveCount(pool)
    ensures forall j :: 0 <= j < |b.vertices| ==> b.vertices[j].owner < |pool| && pool[b.vertices[j].owner].active
    ensures b == Quads(SelectedSlots(pool, OnePass))
  {
    b := reused;
    b := Empty;
    var count := 0;
    var i := 0;
    ghost var drawn: seq<nat> := [];
    while i < |pool|
      invariant 0 <= i <= |pool|
      invariant drawn == SelectedSlots(pool[..i], OnePass)
      invariant b == Quads(drawn)
      invariant count == |b.vertices|
    {
      SelectedSnoc(pool, i, OnePass);
      if pool[i].active {
        b := DrawOne(b, i, count, drawn);
        count := count + 4;
        drawn := drawn + [i];
      }
      i := i + 1;
    }
    assert pool[..i] == pool;
    SelectedCounts(pool);
    PassOwnersSelected(pool, OnePass);
  }

  /** Every vertex of a batch built from selected slots belongs to a selected particle. */
  lemma OwnersSelected(owners: seq<nat>, pool: seq<Particle>, s: Selection)
    requires forall k :: 0 <= k < |owners| ==> owners[k] < |pool| && Selects(s, pool[owners[k]])
    ensures forall j :: 0 <= j < |Quads(owners).vertices| ==>
              Quads(owners).vertices[j].owner < |pool| && Selects(s, pool[Quads(owners).vertices[j].owner])
  {
    var r := Quads(owners);
    forall j | 0 <= j < |r.vertices|
      ensures r.vertices[j].owner < |pool| && Selects(s, pool[r.vertices[j].owner])
    {
      VertexOfQuad(owners, j / 4, j % 4);
    }
  }

  /** Every vertex a pass draws belongs to a particle the pass selects. */
  lemma PassOwnersSelected(pool: seq<Particle>, s: Selection)
    ensures forall j :: 0 <= j < |Quads(SelectedSlots(pool, s)).vertices| ==>
              var owner := Quads(SelectedSlots(pool, s)).vertices[j].owner;
              owner < |pool| && Selects(s, pool[owner])
  {
    SelectedSlotsExactly(pool, s);
    OwnersSelected(SelectedSlots(pool, s), pool, s);
  }

  /** fireworks `Draw`: both buffer pairs are reset, then each active particle goes to
      the fire buffers when it is fire and to the smoke buffers otherwise, each
      buffer numbering its own vertices from 0. No particle is drawn twice, every
      active particle is drawn once, and the two batches never share an owner. */
  method DrawFireworks(reusedFire: Buffer, reusedSmoke: Buffer, pool: seq<Particle>)
    returns (fire: Buffer, smoke: Buffer)
    ensures |fire.vertices| + |smoke.vertices| == 4 * ActiveCount(pool)
    ensures |fire.indices| + |smoke.indices| == 6 * ActiveCount(pool)
    ensures forall j :: 0 <= j < |fire.vertices| ==>
              fire.vertices[j].owner < |pool| && pool[fire.vertices[j].owner].kind == Fire
    ensures forall j :: 0 <= j < |smoke.vertices| ==>
              smoke.vertices[j].owner < |pool| && pool[smoke.vertices[j].owner].kind != Fire
    ensures fire == Quads(SelectedSlots(pool, FirePass))
    ensures smoke == Quads(SelectedSlots(pool, SmokePass))
  {
    fire := reusedFire;
    smoke := reusedSmoke;
    fire, smoke := Empty, Empty;
    var fireCount, smokeCount := 0, 0;
    var i := 0;
    ghost var fireDrawn: seq<nat> := [];
    ghost var smokeDrawn: seq<nat> := [];
    while i < |pool|
      invariant 0 <= i <= |pool|
      invariant fireDrawn == SelectedSlots(pool[..i], FirePass)
      invariant smokeDrawn == SelectedSlots(pool[..i], SmokePass)
      invariant fire == Quads(fireDrawn) && smoke == Quads(smokeDrawn)
      invariant fireCount == 4 * |fireDrawn| && smokeCount == 4 * |smokeDrawn|
    {
      SelectedSnoc(pool, i, FirePass);
      SelectedSnoc(pool, i, SmokePass);
      if pool[i].active {
        if pool[i].kind == Fire {
          fire := DrawOne(fire, i, fireCount, fireDrawn);
          fireCount := fireCount + 4;
          fireDrawn := fireDrawn + [i];
        } else {
          smoke := DrawOne(smoke, i, smokeCount, smokeDrawn);
          smokeCount := smokeCount + 4;
          smokeDrawn := smokeDrawn + [i];
        }
      }
      i := i + 1;
    }
    assert pool[..i] == pool;
    FireworksPartition(pool);
  }

  /** The fire and the non-fire batches together hold one quad per active
      particle, and each holds only particles of its own kind. */
  lemma FireworksPartition(pool: seq<Particle>)
    ensures var fire := Quads(SelectedSlots(pool, FirePass));
            var smoke := Quads(SelectedSlots(pool, SmokePass));
            && |fire.vertices| + |smoke.vertices| == 4 * ActiveCount(pool)
            && |fire.indices| + |smoke.indices| == 6 * ActiveCount(pool)
            && (forall j :: 0 <= j < |fire.vertices| ==>
                  fire.vertices[j].owner < |pool| && pool[fire.vertices[j].owner].kind == Fire)
            && (forall j :: 0 <= j < |smoke.vertices| ==>
                  smoke.vertices[j].owner < |pool| && pool[smoke.vertices[j].owner].kind != Fire)
  {
    SelectedCounts(pool);
    PassOwnersSelected(pool, FirePass);
    PassOwnersSelected(pool, SmokePass);
  }

  /** For a pool of at most 16384 slots (every pooled demo's capacity: amazing's
      14000 needs 56000 vertices), no index of a pass's batch wraps: each one names
      a vertex of the batch, and that vertex belongs to the very particle, drawn by
      the pass, whose quad the index is part of. */
  lemma BatchIndicesWellFormed(pool: seq<Particle>, s: Selection)
    requires 4 * |pool| <= U16Limit
    ensures var owners := SelectedSlots(pool, s);
            var b := Quads(owners);
            forall j :: 0 <= j < |b.indices| ==>
              && 0 <= b.indices[j] < |b.vertices|
              && b.vertices[b.indices[j]].owner == owners[j / 6]
              && owners[j / 6] < |pool|
              && Selects(s, pool[owners[j / 6]])
  {
    var owners := SelectedSlots(pool, s);
    SelectedSlotsExactly(pool, s);
    QuadsIndicesOwnQuad(owners);
  }
}

=== FILE: common.dfy ===
/** Small shared vocabulary of the particle demos: an optional value, 3-component
    vectors over the reals, RGBA colours with byte channels, and the fixed-width
    integer conversions Go applies when it stores into `uint8` and `uint16`. */
module Common {

  /** A value that may be absent; `None` is Go's `nil` pointer result. */
  datatype Option<+T> = None | Some(value: T)

  /** Position or velocity. The 2D demos leave `z` at 0. */
  datatype Vec3 = Vec3(x: real, y: real, z: real) {
    function Plus(o: Vec3): Vec3 {
      Vec3(x + o.x, y + o.y, z + o.z)
    }
  }

  const Origin: Vec3 := Vec3(0.0, 0.0, 0.0)

  /** `color.RGBA`: four channels, each meant to be a byte. */
  datatype Rgba = Rgba(r: int, g: int, b: int, a: int)

  predicate IsByte(n: int) {
    0 <= n < 0x100
  }

  predicate IsByteColor(c: Rgba) {
    IsByte(c.r) && IsByte(c.g) && IsByte(c.b) && IsByte(c.a)
  }

  /** The random outcomes one particle constructor consumes. Real fields stand for
      values derived from `rand.Float64` (after any trigonometry); integer rolls are
      results of `rand.Intn(n)`, which the constructors require to lie in [0, n). */
  datatype Draw = Draw(
    offset: Vec3,
    vel: Vec3,
    angle: real,
    spin: real,
    scale: real,
    lifeRoll: int,
    lifeRoll2: int,
    redRoll: int,
    greenRoll: int,
    blueRoll: int)

  predicate RollIn(roll: int, n: int) {
    0 <= roll < n
  }

  const U16Limit: int := 0x1_0000

  /** Go's conversion `uint16(n)`: keeps the low 16 bits. */
  function ToU16(n: int): (r: int)
    ensures 0 <= r < U16Limit
    ensures 0 <= n < U16Limit ==> r == n
    ensures (r - n) % U16Limit == 0
  {
    n % U16Limit
  }

  /** Go's conversion `uint8(n)` of an integer: keeps the low 8 bits. */
  function ToU8(n: int): (r: int)
    ensures IsByte(r)
    ensures IsByte(n) ==> r == n
    ensures (r - n) % 0x100 == 0
  {
    n % 0x100
  }

  function Min(a: int, b: int): (r: int)
    ensures r <= a && r <= b
    ensures r == a || r == b
  {
    if a <= b then a else b
  }

  function Max(a: int, b: int): (r: int)
    ensures r >= a && r >= b
    ensures r == a || r == b
  {
    if a >= b then a else b
  }

  /** Two facts of real multiplication the solver does not always find unaided. */
  lemma MulPositive(a: real, b: real)
    ensures a > 0.0 && b > 0.0 ==> a * b > 0.0
  {
  }

  lemma MulStrictlyMonotone(a: real, b: real, c: real)
    requires a > 0.0 && b < c
    ensures a * b < a * c
  {
  }

  /** The values present in a sequence of optional values, in order. */
  function Present<T>(os: seq<Option<T>>): (r: seq<T>)
    ensures |r| <= |os|
    ensures forall k :: 0 <= k < |r| ==> Some(r[k]) in os
  {
    if |os| == 0 then []
    else
      var last := os[|os| - 1];
      Present(os[..|os| - 1]) + (if last.Some? then [last.value] else [])
  }

  /** The positions of the present values, in order. */
  function PresentIndices<T>(os: seq<Option<T>>): (r: seq<nat>)
    ensures |r| == |Present(os)|
  {
    if |os| == 0 then []
    else
      var n := |os| - 1;
      PresentIndices(os[..n]) + (if os[n].Some? then [n] else [])
  }

  lemma {:induction false} PresentIndicesContents<T>(os: seq<Option<T>>)
    ensures forall k :: 0 <= k < |PresentIndices(os)| ==>
              PresentIndices(os)[k] < |os| && os[PresentIndices(os)[k]] == Some(Present(os)[k])
    decreases |os|
  {
    if |os| > 0 {
      var n := |os| - 1;
      PresentIndicesContents(os[..n]);
      assert forall i :: 0 <= i < n ==> os[..n][i] == os[i];
    }
  }

  lemma {:induction false} PresentIndicesIncreasing<T>(os: seq<Option<T>>)
    ensures forall k :: 0 <= k < |PresentIndices(os)| ==> PresentIndices(os)[k] < |os|
    ensures forall k, l :: 0 <= k < l < |PresentIndices(os)| ==> PresentIndices(os)[k] < PresentIndices(os)[l]
    decreases |os|
  {
    if |os| > 0 {
      PresentIndicesIncreasing(os[..|os| - 1]);
    }
  }

  lemma {:induction false} PresentIndicesComplete<T>(os: seq<Option<T>>)
    ensures forall i :: 0 <= i < |os| ==> (os[i].Some? <==> i in PresentIndices(os))
    decreases |os|
  {
    if |os| > 0 {
      var n := |os| - 1;
      PresentIndicesComplete(os[..n]);
      PresentIndicesIncreasing(os[..n]);
      assert forall i :: 0 <= i < n ==> os[..n][i] == os[i];
    }
  }

  /** `Present` keeps exactly the present values, in their original order: `idx`
      lists their positions, increasing. */
  lemma PresentExactly<T>(os: seq<Option<T>>) returns (idx: seq<nat>)
    ensures |idx| == |Present(os)|
    ensures forall k :: 0 <= k < |idx| ==> idx[k] < |os| && os[idx[k]] == Some(Present(os)[k])
    ensures forall k, l :: 0 <= k < l < |idx| ==> idx[k] < idx[l]
    ensures forall i :: 0 <= i < |os| ==> (os[i].Some? <==> i in idx)
  {
    idx := PresentIndices(os);
    PresentIndicesContents(os);
    PresentIndicesIncreasing(os);
    PresentIndicesComplete(os);
  }
}

=== FILE: countdown.dfy ===
/** The compacting demos (advanced.particles, bubbles, NewParticles) keep a plain
    slice of particles with a count-down `life`: each tick every particle moves
    and loses one unit of life, survivors are compacted to the front of the slice
    in place, and new particles are appended up to a cap. */
module Countdown {
  import opened Common

  /** One count-down particle. `size` is `baseScale` / `baseSize`. */
  datatype Mote = Mote(
    pos: Vec3,
    vel: Vec3,
    angle: real,
    spin: real,
    size: real,
    life: int,
    maxLife: int,
    color: Rgba)

  /** Per-tick velocity change: v' = v * damp, then vy' += accelY. */
  datatype Drift = Drift(damp: real, accelY: real)

  /** advanced.particles: `v *= 0.995`. */
  const CloudDrift: Drift := Drift(0.995, 0.0)
  /** bubbles: `v *= 0.99`. */
  const BubbleDrift: Drift := Drift(0.99, 0.0)
  /** NewParticles: `vy += 0.01`. */
  const RingDrift: Drift := Drift(1.0, 0.01)

  /** A particle as the demos that start `life` at `maxLife` keep it. */
  predicate WellFormed(m: Mote) {
    0 < m.life <= m.maxLife
  }

  /** `Particle.update` / `Particle.Update`: move, damp, advance the angle, lose one
      unit of life, and report whether any life is left. */
  function Update(m: Mote, d: Drift): (r: (Mote, bool))
    ensures r.0.life == m.life - 1 && r.0.maxLife == m.maxLife
    ensures r.1 <==> m.life > 1
    ensures r.1 ==> r.0.life > 0
    ensures r.0.pos == m.pos.Plus(m.vel) && r.0.angle == m.angle + m.spin
    ensures r.0.color == m.color && r.0.size == m.size
  {
    var v := m.vel;
    var moved := m.(
      pos := m.pos.Plus(v),
      vel := Vec3(v.x * d.damp, v.y * d.damp + d.accelY, v.z * d.damp),
      angle := m.angle + m.spin,
      life := m.life - 1);
    (moved, moved.life > 0)
  }

  /** Reference for one update-and-compact pass: the updated particles whose update
      returned true, in their original order. */
  function Survivors(ps: seq<Mote>, d: Drift): (r: seq<Mote>)
    ensures |r| <= |ps|
    ensures forall k :: 0 <= k < |r| ==> r[k].life > 0
  {
    if |ps| == 0 then []
    else
      var u := Update(ps[|ps| - 1], d);
      Survivors(ps[..|ps| - 1], d) + (if u.1 then [u.0] else [])
  }

  /** What one particle contributes to the survivors: its updated self, or nothing. */
  function Outcome(m: Mote, d: Drift): (r: Option<Mote>)
    ensures r.Some? <==> m.life > 1
    ensures r.Some? ==> r.value == Update(m, d).0
  {
    var u := Update(m, d);
    if u.1 then Some(u.0) else None
  }

  function Outcomes(ps: seq<Mote>, d: Drift): (r: seq<Option<Mote>>)
    ensures |r| == |ps| && forall i :: 0 <= i < |ps| ==> r[i] == Outcome(ps[i], d)
  {
    seq(|ps|, i requires 0 <= i < |ps| => Outcome(ps[i], d))
  }

  /** The survivors are the present outcomes. */
  lemma {:induction false} SurvivorsArePresent(ps: seq<Mote>, d: Drift)
    ensures Survivors(ps, d) == Present(Outcomes(ps, d))
    decreases |ps|
  {
    if |ps| > 0 {
      var n := |ps| - 1;
      SurvivorsArePresent(ps[..n], d);
      assert Outcomes(ps, d)[..n] == Outcomes(ps[..n], d);
    }
  }

  /** The survivors are exactly the particles whose update returned true, in their
      original relative order: `idx` lists their original positions, increasing. */
  lemma SurvivorsExactly(ps: seq<Mote>, d: Drift) returns (idx: seq<nat>)
    ensures |idx| == |Survivors(ps, d)|
    ensures forall k :: 0 <= k < |idx| ==> idx[k] < |ps| && Survivors(ps, d)[k] == Update(ps[idx[k]], d).0
    ensures forall k, l :: 0 <= k < l < |idx| ==> idx[k] < idx[l]
    ensures forall i :: 0 <= i < |ps| ==> (Update(ps[i], d).1 <==> i in idx)
  {
    SurvivorsArePresent(ps, d);
    idx := PresentExactly(Outcomes(ps, d));
  }

  /** Survivors keep their maxLife and lose one unit of life, so well-formedness and a
      positive maxLife carry over. */
  lemma SurvivorsKeep(ps: seq<Mote>, d: Drift)
    ensures (forall i :: 0 <= i < |ps| ==> WellFormed(ps[i])) ==>
              forall k :: 0 <= k < |Survivors(ps, d)| ==> WellFormed(Survivors(ps, d)[k])
    ensures (forall i :: 0 <= i < |ps| ==> ps[i].maxLife > 0) ==>
              forall k :: 0 <= k < |Survivors(ps, d)| ==> Survivors(ps, d)[k].maxLife > 0
  {
    var idx := SurvivorsExactly(ps, d);
  }

  /** The in-place compaction loop of `Update`:
      `write := 0; for _, p := range ps { if p.update() { ps[write] = p; write++ } }; ps = ps[:write]`.
      The write cursor never overtakes the read position, so every particle is read
      before its slot can be overwritten. */
  method UpdateAndCompact(ps: seq<Mote>, d: Drift) returns (kept: seq<Mote>)
    ensures kept == Survivors(ps, d)
    ensures |kept| <= |ps|
    ensures forall k :: 0 <= k < |kept| ==> kept[k].life > 0
  {
    var buf := ps;
    var write := 0;
    var i := 0;
    while i < |ps|
      invariant 0 <= write <= i <= |ps|
      invariant |buf| == |ps|
      invariant buf[i..] == ps[i..]
      invariant buf[..write] == Survivors(ps[..i], d)
    {
      assert buf[i] == ps[i];
      var u := Update(buf[i], d);
      assert ps[..i + 1][..i] == ps[..i];
      if u.1 {
        buf := buf[write := u.0];
        write := write + 1;
      }
      i := i + 1;
    }
    assert ps[..i] == ps;
    kept := buf[..write];
  }

  /** `spawn(n)`: `for i := 0; i < n && len(ps) < maxParticles; i++ { ps = append(ps, NewParticle()) }`.
      `newcomers` holds the n particles the calls would create. It appends
      min(n, capacity - len) of them and never grows the slice past capacity. */
  method Spawn(ps: seq<Mote>, newcomers: seq<Mote>, capacity: nat) returns (r: seq<Mote>)
    ensures |ps| >= capacity ==> r == ps
    ensures |ps| < capacity ==> r == ps + newcomers[..Min(|newcomers|, capacity - |ps|)]
    ensures |ps| <= capacity ==> |r| <= capacity
  {
    r := ps;
    var i := 0;
    while i < |newcomers| && |r| < capacity
      invariant 0 <= i <= |newcomers|
      invariant r == ps + newcomers[..i]
      invariant |ps| >= capacity ==> i == 0
      invariant |ps| < capacity ==> |r| <= capacity
    {
      r := r + [newcomers[i]];
      i := i + 1;
    }
  }

  /** The slice `spawn(n)` leaves behind: as many newcomers as fit below `capacity`. */
  function Spawned(ps: seq<Mote>, newcomers: seq<Mote>, capacity: nat): seq<Mote> {
    if |ps| < capacity then ps + newcomers[..Min(|newcomers|, capacity - |ps|)] else ps
  }

  /** The slice together with the tick counter of `Game`. */
  datatype Cloud = Cloud(motes: seq<Mote>, tick: nat)

  predicate AllWellFormed(ms: seq<Mote>) {
    forall k :: 0 <= k < |ms| ==> WellFormed(ms[k])
  }

  // ------------------------------------------------------ advanced.particles

  const CloudCapacity: nat := 1200
  /** `spawnPerTick`. */
  const SpawnPerTick: nat := 8
  /** The refill fires below `maxParticles/3`. */
  const RefillThreshold: nat := 400
  const RefillCount: nat := 40

  /** The slice after the spawn phase of the next tick: `newcomers` appended up to
      1200 when the incremented tick is even, untouched otherwise. */
  function EvenTickSpawn(c: Cloud, newcomers: seq<Mote>): seq<Mote> {
    if (c.tick + 1) % 2 == 0 then Spawned(c.motes, newcomers, CloudCapacity) else c.motes
  }

  predicate CloudRolls(d: Draw) {
    RollIn(d.lifeRoll, 160) && RollIn(d.redRoll, 60) && RollIn(d.greenRoll, 60)
  }

  /** advanced.particles `NewParticle`: a point of the spherical cloud with
      life == maxLife == 80 + `rand.Intn(160)` and a bluish colour. */
  function CloudMote(d: Draw): (m: Mote)
    requires CloudRolls(d)
    ensures m.life == m.maxLife && 80 <= m.maxLife <= 239
    ensures WellFormed(m)
    ensures 180 <= m.color.r <= 239 && 180 <= m.color.g <= 239 && m.color.b == 255 && m.color.a == 255
  {
    var maxLife := 80 + d.lifeRoll;
    Mote(d.offset, d.vel, d.angle, d.spin, d.scale, maxLife, maxLife,
         Rgba(ToU8(180 + d.redRoll), ToU8(180 + d.greenRoll), 255, 255))
  }

  function CloudMotes(ds: seq<Draw>): (ms: seq<Mote>)
    requires forall k :: 0 <= k < |ds| ==> CloudRolls(ds[k])
    ensures |ms| == |ds| && AllWellFormed(ms)
  {
    seq(|ds|, k requires 0 <= k < |ds| => CloudMote(ds[k]))
  }

  lemma AppendWellFormed(a: seq<Mote>, b: seq<Mote>, n: nat)
    requires AllWellFormed(a) && AllWellFormed(b) && n <= |b|
    ensures AllWellFormed(a + b[..n])
  {
    assert forall k :: |a| <= k < |a| + n ==> (a + b[..n])[k] == b[k - |a|];
  }

  /** `Update` of advanced.particles: tick++, spawn 8 on even ticks, update and
      compact, then add 40 when fewer than 400 remain. The slice never passes
      1200 and never drops below 40 after a tick. Its content is the survivors of
      the spawn phase, followed by all 40 refill particles exactly when fewer than
      400 survived (400 + 40 always fits below 1200). */
  method AdvancedUpdate(c: Cloud, evenDraws: seq<Draw>, refillDraws: seq<Draw>) returns (r: Cloud)
    requires |evenDraws| == SpawnPerTick && |refillDraws| == RefillCount
    requires forall k :: 0 <= k < |evenDraws| ==> CloudRolls(evenDraws[k])
    requires forall k :: 0 <= k < |refillDraws| ==> CloudRolls(refillDraws[k])
    ensures r.tick == c.tick + 1
    ensures |c.motes| <= CloudCapacity ==> |r.motes| <= CloudCapacity
    ensures |r.motes| >= RefillCount
    ensures AllWellFormed(c.motes) ==> AllWellFormed(r.motes)
    ensures var s := Survivors(EvenTickSpawn(c, CloudMotes(evenDraws)), CloudDrift);
              |s| >= RefillThreshold ==> r.motes == s
    ensures var s := Survivors(EvenTickSpawn(c, CloudMotes(evenDraws)), CloudDrift);
              |s| < RefillThreshold ==> r.motes == s + CloudMotes(refillDraws)
  {
    var tick := c.tick + 1;
    var ms := c.motes;
    if tick % 2 == 0 {
      ms := Spawn(ms, CloudMotes(evenDraws), CloudCapacity);
    }
    assert ms == EvenTickSpawn(c, CloudMotes(evenDraws));
    EvenTickSpawnKeeps(c, CloudMotes(evenDraws));
    var kept := UpdateAndCompact(ms, CloudDrift);
    SurvivorsKeep(ms, CloudDrift);
    ms := kept;
    if |ms| < CloudCapacity / 3 {
      ms := Spawn(ms, CloudMotes(refillDraws), CloudCapacity);
      RefillFits(kept, CloudMotes(refillDraws));
    }
    r := Cloud(ms, tick);
  }

  /** The spawn phase never grows the slice past 1200 and keeps it well formed. */
  lemma EvenTickSpawnKeeps(c: Cloud, newcomers: seq<Mote>)
    ensures |c.motes| <= CloudCapacity ==> |EvenTickSpawn(c, newcomers)| <= CloudCapacity
    ensures AllWellFormed(c.motes) && AllWellFormed(newcomers) ==> AllWellFormed(EvenTickSpawn(c, newcomers))
  {
    if AllWellFormed(c.motes) && AllWellFormed(newcomers) && |c.motes| < CloudCapacity {
      AppendWellFormed(c.motes, newcomers, Min(|newcomers|, CloudCapacity - |c.motes|));
    }
  }

  /** Below the refill threshold all 40 refill particles fit. */
  lemma RefillFits(kept: seq<Mote>, refill: seq<Mote>)
    requires |kept| < RefillThreshold && |refill| == RefillCount
    ensures Spawned(kept, refill, CloudCapacity) == kept + refill
    ensures AllWellFormed(kept) && AllWellFormed(refill) ==> AllWellFormed(kept + refill)
  {
    assert refill[..RefillCount] == refill;
    if AllWellFormed(kept) && AllWellFormed(refill) {
      AppendWellFormed(kept, refill, RefillCount);
    }
  }

  // ----------------------------------------------------------------- bubbles

  predicate BubbleRolls(d: Draw) {
    RollIn(d.lifeRoll, 120) && RollIn(d.redRoll, 70) && RollIn(d.greenRoll, 70)
  }

  /** bubbles `NewParticle`: life == maxLife == 100 + `rand.Intn(120)`. */
  function BubbleMote(d: Draw): (m: Mote)
    requires BubbleRolls(d)
    ensures m.life == m.maxLife && 100 <= m.maxLife <= 219
    ensures WellFormed(m)
    ensures 180 <= m.color.r <= 249 && 180 <= m.color.g <= 249 && m.color.b == 255 && m.color.a == 255
  {
    var maxLife := 100 + d.lifeRoll;
    Mote(d.offset, d.vel, 0.0, 0.0, d.scale, maxLife, maxLife,
         Rgba(ToU8(180 + d.redRoll), ToU8(180 + d.greenRoll), 255, 255))
  }

  function BubbleMotes(ds: seq<Draw>): (ms: seq<Mote>)
    requires forall k :: 0 <= k < |ds| ==> BubbleRolls(ds[k])
    ensures |ms| == |ds| && AllWellFormed(ms)
  {
    seq(|ds|, k requires 0 <= k < |ds| => BubbleMote(ds[k]))
  }

  /** `Update` of bubbles: tick++, spawn 8 on even ticks (capped at 1200), then update
      and compact: the result is the survivors of the spawn phase. Odd ticks spawn
      nothing. */
  method BubblesUpdate(c: Cloud, evenDraws: seq<Draw>) returns (r: Cloud)
    requires |evenDraws| == SpawnPerTick
    requires forall k :: 0 <= k < |evenDraws| ==> BubbleRolls(evenDraws[k])
    ensures r.tick == c.tick + 1
    ensures |c.motes| <= CloudCapacity ==> |r.motes| <= CloudCapacity
    ensures AllWellFormed(c.motes) ==> AllWellFormed(r.motes)
    ensures (c.tick + 1) % 2 == 1 ==> r.motes == Survivors(c.motes, BubbleDrift)
    ensures forall k :: 0 <= k < |r.motes| ==> r.motes[k].life > 0
    ensures r.motes == Survivors(EvenTickSpawn(c, BubbleMotes(evenDraws)), BubbleDrift)
  {
    var tick := c.tick + 1;
    var ms := c.motes;
    if tick % 2 == 0 {
      ms := Spawn(ms, BubbleMotes(evenDraws), CloudCapacity);
    }
    assert ms == EvenTickSpawn(c, BubbleMotes(evenDraws));
    EvenTickSpawnKeeps(c, BubbleMotes(evenDraws));
    var kept := UpdateAndCompact(ms, BubbleDrift);
    SurvivorsKeep(ms, BubbleDrift);
    r := Cloud(kept, tick);
  }

  // ------------------------------------------------------------ NewParticles

  const RingCapacity: nat := 800
  /** Particles appended per spawning tick. */
  const RingBatch: nat := 5

  predicate RingRolls(d: Draw) {
    RollIn(d.lifeRoll, 120) && RollIn(d.lifeRoll2, 120) && RollIn(d.redRoll, 55) && RollIn(d.greenRoll, 55)
  }

  /** NewParticles `NewParticle`: starts at the screen centre (400, 300), turns 0.01
      per tick, and draws `life` and `maxLife` independently from 60 + `rand.Intn(120)`. */
  function RingMote(d: Draw): (m: Mote)
    requires RingRolls(d)
    ensures 60 <= m.life <= 179 && 60 <= m.maxLife <= 179
    ensures m.pos == Vec3(400.0, 300.0, 0.0) && m.spin == 0.01
    ensures 200 <= m.color.r <= 254 && 200 <= m.color.g <= 254 && m.color.b == 255 && m.color.a == 255
  {
    Mote(Vec3(400.0, 300.0, 0.0), d.vel, d.angle, 0.01, d.scale, 60 + d.lifeRoll, 60 + d.lifeRoll2,
         Rgba(ToU8(200 + d.redRoll), ToU8(200 + d.greenRoll), 255, 255))
  }

  /** Because the two rolls are independent, a new particle can start with more
      life than its maxLife, so life/maxLife is not bounded by 1. */
  lemma RingLifeCanExceedMaxLife()
    ensures exists d :: RingRolls(d) && RingMote(d).life > RingMote(d).maxLife
  {
    var d := Draw(Origin, Origin, 0.0, 0.0, 0.0, 119, 0, 0, 0, 0);
    assert RingRolls(d) && RingMote(d).life == 179 && RingMote(d).maxLife == 60;
  }

  function RingMotes(ds: seq<Draw>): (ms: seq<Mote>)
    requires forall k :: 0 <= k < |ds| ==> RingRolls(ds[k])
    ensures |ms| == |ds|
    ensures forall k :: 0 <= k < |ms| ==> ms[k].life > 0 && ms[k].maxLife > 0
  {
    seq(|ds|, k requires 0 <= k < |ds| => RingMote(ds[k]))
  }

  /** `Update` of NewParticles: five particles are appended when the count is below
      800 and the tick (before its increment) is even, with no cap inside the
      batch; then tick++ and update-and-compact, which keeps exactly the survivors
      of the old particles followed by those of the new batch. The count therefore
      stays at most 800 + 4, and every kept particle has life and maxLife positive. */
  method RingUpdate(c: Cloud, draws: seq<Draw>) returns (r: Cloud)
    requires |draws| == RingBatch
    requires forall k :: 0 <= k < |draws| ==> RingRolls(draws[k])
    ensures r.tick == c.tick + 1
    ensures |c.motes| <= RingCapacity + RingBatch - 1 ==> |r.motes| <= RingCapacity + RingBatch - 1
    ensures !(|c.motes| < RingCapacity && c.tick % 2 == 0) ==> r.motes == Survivors(c.motes, RingDrift)
    ensures forall k :: 0 <= k < |r.motes| ==> r.motes[k].life > 0
    ensures (forall k :: 0 <= k < |c.motes| ==> c.motes[k].maxLife > 0) ==>
              forall k :: 0 <= k < |r.motes| ==> r.motes[k].maxLife > 0
    ensures |c.motes| < RingCapacity && c.tick % 2 == 0 ==>
              r.motes == Survivors(c.motes + RingMotes(draws), RingDrift)
  {
    var ms := c.motes;
    if |ms| < RingCapacity && c.tick % 2 == 0 {
      ms := ms + RingMotes(draws);
    }
    var tick := c.tick + 1;
    var before := ms;
    ms := UpdateAndCompact(ms, RingDrift);
    SurvivorsKeep(before, RingDrift);
    r := Cloud(ms, tick);
  }
}

=== FILE: depth.dfy ===
/** The draw pass of the 3D cloud demos (advanced.particles, bubbles): project every
    particle, drop those behind the near plane, fade by life and depth, sort far to
    near, and turn the alpha into what is drawn (clamped to [0,1] in
    advanced.particles, a byte with low values skipped in bubbles). */
module Depth {
  import opened Common
  import opened Countdown
  import opened Projection

  /** advanced.particles never fades below a quarter ... */
  const CloudFadeFloor: real := 0.25
  /** ... bubbles never below a fifth. */
  const BubbleFadeFloor: real := 0.2

  /** `depthFade := 1 - (depth-200)/1200`, raised to `floor` when below it. */
  function DepthFade(depth: real, floor: real): (r: real)
    ensures r >= floor
    ensures r == floor || r == 1.0 - (depth - 200.0) / 1200.0
  {
    var fade := 1.0 - (depth - 200.0) / 1200.0;
    if fade < floor then floor else fade
  }

  /** Farther never means brighter. */
  lemma DepthFadeNonIncreasing(near: real, far: real, floor: real)
    requires near <= far
    ensures DepthFade(far, floor) <= DepthFade(near, floor)
  {
  }

  /** The floor is reached exactly from depth 200 + 1200 * (1 - floor) on: 1100 in
      advanced.particles, 1160 in bubbles. */
  lemma DepthFadeAtFloor(depth: real, floor: real)
    ensures DepthFade(depth, floor) == floor <==> depth >= 200.0 + 1200.0 * (1.0 - floor)
  {
  }

  /** The alpha clamp of advanced.particles `Draw`. */
  function Clamp01(a: real): (r: real)
    ensures 0.0 <= r <= 1.0
    ensures 0.0 <= a <= 1.0 ==> r == a
    ensures a < 0.0 ==> r == 0.0
    ensures a > 1.0 ==> r == 1.0
  {
    if a < 0.0 then 0.0 else if a > 1.0 then 1.0 else a
  }

  /** Clamping is monotone and idempotent. */
  lemma Clamp01Monotone(a: real, b: real)
    requires a <= b
    ensures Clamp01(a) <= Clamp01(b)
    ensures Clamp01(Clamp01(a)) == Clamp01(a)
  {
  }

  /** `float64(life) / float64(maxLife)`. */
  function LifeRatio(life: int, maxLife: int): (r: real)
    requires maxLife > 0
    ensures r * maxLife as real == life as real
    ensures 0 < life <= maxLife ==> 0.0 < r <= 1.0
  {
    life as real / maxLife as real
  }

  /** One `drawItem`: screen position, sprite size, depth, unclamped alpha, and the
      particle's colour and angle. */
  datatype DrawItem = DrawItem(sx: real, sy: real, size: real, depth: real, alpha: real, color: Rgba, angle: real)

  datatype Style = CloudStyle | BubbleStyle

  function FadeFloor(s: Style): real {
    match s
    case CloudStyle => CloudFadeFloor
    case BubbleStyle => BubbleFadeFloor
  }

  /** What multiplies `focalLength/z2` in the sprite size: `baseScale * 2` in
      advanced.particles, `baseSize * 3` in bubbles. */
  function SizeMul(s: Style, m: Mote): real {
    match s
    case CloudStyle => m.size * 2.0
    case BubbleStyle => m.size * 3.0
  }

  /** The body of the collection loop for one particle: nothing when hidden,
      otherwise an item whose alpha is life ratio times depth fade. */
  function ItemFor(m: Mote, c: Camera, s: Style): (r: Option<DrawItem>)
    requires m.maxLife > 0
    ensures r.Some? ==> r.value.color == m.color
    ensures r.Some? <==> Project(m.pos, c, SizeMul(s, m)).Visible?
    ensures r.Some? ==> r.value.depth == Project(m.pos, c, SizeMul(s, m)).depth && r.value.depth > NearClip
    ensures r.Some? ==> r.value.alpha == LifeRatio(m.life, m.maxLife) * DepthFade(r.value.depth, FadeFloor(s))
    ensures r.Some? && WellFormed(m) ==> r.value.alpha > 0.0
  {
    match Project(m.pos, c, SizeMul(s, m))
    case Hidden(_) => None
    case Visible(sx, sy, size, depth) =>
      var ratio := LifeRatio(m.life, m.maxLife);
      var fade := DepthFade(depth, FadeFloor(s));
      MulPositive(ratio, fade);
      Some(DrawItem(sx, sy, size, depth, ratio * fade, m.color, m.angle))
  }

  predicate PositiveMaxLife(ms: seq<Mote>) {
    forall k :: 0 <= k < |ms| ==> ms[k].maxLife > 0
  }

  /** The collection loop: one item per visible particle, in slice order (see
      `CollectItemsExactly`). */
  function CollectItems(ms: seq<Mote>, c: Camera, s: Style): (r: seq<DrawItem>)
    requires PositiveMaxLife(ms)
    ensures |r| <= |ms|
    ensures forall k :: 0 <= k < |r| ==> r[k].depth > NearClip
    ensures AllWellFormed(ms) ==> forall k :: 0 <= k < |r| ==> r[k].alpha > 0.0
  {
    var os := seq(|ms|, k requires 0 <= k < |ms| => ItemFor(ms[k], c, s));
    PresentIndicesContents(os);
    Present(os)
  }

  /** The items are exactly those of the visible particles, in slice order. */
  lemma CollectItemsExactly(ms: seq<Mote>, c: Camera, s: Style) returns (idx: seq<nat>)
    requires PositiveMaxLife(ms)
    ensures |idx| == |CollectItems(ms, c, s)|
    ensures forall k :: 0 <= k < |idx| ==>
              idx[k] < |ms| && ItemFor(ms[idx[k]], c, s) == Some(CollectItems(ms, c, s)[k])
    ensures forall k, l :: 0 <= k < l < |idx| ==> idx[k] < idx[l]
    ensures forall i :: 0 <= i < |ms| ==> (ItemFor(ms[i], c, s).Some? <==> i in idx)
  {
    var os := seq(|ms|, k requires 0 <= k < |ms| => ItemFor(ms[k], c, s));
    idx := PresentExactly(os);
  }

  /** `sort.Slice(items, depth_i > depth_j)`: far to near. */
  predicate SortedFarToNear(s: seq<DrawItem>) {
    forall i, j :: 0 <= i < j < |s| ==> s[i].depth >= s[j].depth
  }

  /** One insertion step: `x` goes in front of the first item that is not farther. */
  function InsertFarToNear(x: DrawItem, s: seq<DrawItem>): (r: seq<DrawItem>)
    ensures |r| == |s| + 1
  {
    if |s| == 0 then [x]
    else if x.depth >= s[0].depth then [x] + s
    else [s[0]] + InsertFarToNear(x, s[1..])
  }

  /** Inserting adds exactly `x`. */
  lemma {:induction false} InsertFarToNearPerm(x: DrawItem, s: seq<DrawItem>)
    ensures multiset(InsertFarToNear(x, s)) == multiset(s) + multiset{x}
    decreases |s|
  {
    if |s| > 0 && x.depth < s[0].depth {
      InsertFarToNearPerm(x, s[1..]);
      assert s == [s[0]] + s[1..];
    }
  }

  /** Inserting an item no deeper than `bound` into items no deeper than `bound`
      yields items no deeper than `bound`. */
  lemma {:induction false} InsertFarToNearBounded(x: DrawItem, s: seq<DrawItem>, bound: real)
    requires x.depth <= bound
    requires forall k :: 0 <= k < |s| ==> s[k].depth <= bound
    ensures forall k :: 0 <= k < |InsertFarToNear(x, s)| ==> InsertFarToNear(x, s)[k].depth <= bound
    decreases |s|
  {
    if |s| > 0 && x.depth < s[0].depth {
      InsertFarToNearBounded(x, s[1..], bound);
    }
  }

  /** Inserting into a far-to-near list keeps it far to near. */
  lemma {:induction false} InsertFarToNearSorted(x: DrawItem, s: seq<DrawItem>)
    requires SortedFarToNear(s)
    ensures SortedFarToNear(InsertFarToNear(x, s))
    decreases |s|
  {
    if |s| > 0 && x.depth < s[0].depth {
      InsertFarToNearSorted(x, s[1..]);
      InsertFarToNearBounded(x, s[1..], s[0].depth);
      SortedCons(s[0], InsertFarToNear(x, s[1..]));
    } else if |s| > 0 {
      SortedCons(x, s);
    }
  }

  /** Putting in front an item no nearer than any other keeps the order. */
  lemma SortedCons(x: DrawItem, s: seq<DrawItem>)
    requires SortedFarToNear(s)
    requires forall k :: 0 <= k < |s| ==> s[k].depth <= x.depth
    ensures SortedFarToNear([x] + s)
  {
    var r := [x] + s;
    forall i, j | 0 <= i < j < |r|
      ensures r[i].depth >= r[j].depth
    {
      assert r[j] == s[j - 1];
      if i > 0 {
        assert r[i] == s[i - 1];
      }
    }
  }

  /** The step of the sort: inserting the first item into a sorted permutation of
      the others gives a sorted permutation of all of them. */
  lemma {:induction false} InsertFirstSorted(items: seq<DrawItem>, rest: seq<DrawItem>)
    requires |items| > 0 && SortedFarToNear(rest) && multiset(rest) == multiset(items[1..])
    ensures SortedFarToNear(InsertFarToNear(items[0], rest))
    ensures multiset(InsertFarToNear(items[0], rest)) == multiset(items)
  {
    InsertFarToNearSorted(items[0], rest);
    InsertFarToNearPerm(items[0], rest);
    assert items == [items[0]] + items[1..];
  }

  /** A sort by depth, far to near. `sort.Slice` is not stable, so the only promise
      is a far-to-near permutation; this is one such permutation. */
  function SortFarToNear(items: seq<DrawItem>): (r: seq<DrawItem>)
    ensures SortedFarToNear(r)
    ensures multiset(r) == multiset(items)
    ensures |r| == |items|
  {
    if |items| == 0 then []
    else
      var rest := SortFarToNear(items[1..]);
      InsertFirstSorted(items, rest);
      InsertFarToNear(items[0], rest)
  }

  // ------------------------------------------------------ advanced.particles

  /** The items advanced.particles draws this frame, in drawing order, each with its
      alpha clamped into [0,1]: the visible particles' items, each drawn once. */
  function CloudDrawList(ms: seq<Mote>, c: Camera): (r: seq<DrawItem>)
    requires PositiveMaxLife(ms)
    ensures |r| == |CollectItems(ms, c, CloudStyle)|
    ensures forall i, j :: 0 <= i < j < |r| ==> r[i].depth >= r[j].depth
    ensures forall k :: 0 <= k < |r| ==> 0.0 <= r[k].alpha <= 1.0 && r[k].depth > NearClip
    ensures AllWellFormed(ms) ==> forall k :: 0 <= k < |r| ==> r[k].alpha > 0.0
    ensures multiset(r) == multiset(ClampAlphas(CollectItems(ms, c, CloudStyle)))
  {
    var items := CollectItems(ms, c, CloudStyle);
    ClampedSortPerm(items);
    ClampedSortKeeps(items, NearClip);
    ClampAlphas(SortFarToNear(items))
  }

  /** The alpha clamp applied item by item; nothing but the alpha changes. */
  function ClampAlphas(items: seq<DrawItem>): (r: seq<DrawItem>)
    ensures |r| == |items|
    ensures forall k :: 0 <= k < |r| ==> r[k] == items[k].(alpha := Clamp01(items[k].alpha))
  {
    seq(|items|, k requires 0 <= k < |items| => items[k].(alpha := Clamp01(items[k].alpha)))
  }

  /** Clamping leaves the depth alone, so it commutes with one insertion step. */
  lemma {:induction false} ClampInsertCommute(x: DrawItem, s: seq<DrawItem>)
    ensures ClampAlphas(InsertFarToNear(x, s)) == InsertFarToNear(x.(alpha := Clamp01(x.alpha)), ClampAlphas(s))
    decreases |s|
  {
    var cx := x.(alpha := Clamp01(x.alpha));
    if |s| == 0 {
      ClampAlphasCons(x, []);
    } else {
      var s0, rest := s[0], s[1..];
      assert s == [s0] + rest;
      ClampAlphasCons(s0, rest);
      var cs := ClampAlphas(s);
      assert cs[0].depth == s0.depth;
      if x.depth >= s0.depth {
        ClampAlphasCons(x, s);
      } else {
        var t := InsertFarToNear(x, rest);
        assert InsertFarToNear(x, s) == [s0] + t;
        ClampInsertCommute(x, rest);
        ClampAlphasCons(s0, t);
        assert cs[1..] == ClampAlphas(rest);
      }
    }
  }

  /** Clamping a list with one more item in front clamps that item in front. */
  lemma {:induction false} ClampAlphasCons(x: DrawItem, s: seq<DrawItem>)
    ensures ClampAlphas([x] + s) == [x.(alpha := Clamp01(x.alpha))] + ClampAlphas(s)
  {
    var l, r := ClampAlphas([x] + s), [x.(alpha := Clamp01(x.alpha))] + ClampAlphas(s);
    assert |l| == |r|;
    forall k | 0 <= k < |l|
      ensures l[k] == r[k]
    {
      if k > 0 {
        assert ([x] + s)[k] == s[k - 1];
      }
    }
  }

  /** Clamping after the sort gives the sort of the clamped items. */
  lemma {:induction false} ClampSortCommute(items: seq<DrawItem>)
    ensures ClampAlphas(SortFarToNear(items)) == SortFarToNear(ClampAlphas(items))
    decreases |items|
  {
    if |items| > 0 {
      ClampSortCommute(items[1..]);
      ClampInsertCommute(items[0], SortFarToNear(items[1..]));
      assert ClampAlphas(items)[1..] == ClampAlphas(items[1..]);
    }
  }

  /** Sorting and then clamping draws the clamped items, each once. */
  lemma {:induction false} ClampedSortPerm(items: seq<DrawItem>)
    ensures multiset(ClampAlphas(SortFarToNear(items))) == multiset(ClampAlphas(items))
  {
    ClampSortCommute(items);
  }

  /** The sorted, clamped list is ordered far to near, has every alpha in [0,1], and
      keeps a depth bound and positive alphas that all the items have. */
  lemma {:induction false} ClampedSortKeeps(items: seq<DrawItem>, bound: real)
    ensures SortedFarToNear(ClampAlphas(SortFarToNear(items)))
    ensures forall k :: 0 <= k < |ClampAlphas(SortFarToNear(items))| ==>
              0.0 <= ClampAlphas(SortFarToNear(items))[k].alpha <= 1.0
    ensures (forall k :: 0 <= k < |items| ==> items[k].depth > bound) ==>
              forall k :: 0 <= k < |ClampAlphas(SortFarToNear(items))| ==> ClampAlphas(SortFarToNear(items))[k].depth > bound
    ensures (forall k :: 0 <= k < |items| ==> items[k].alpha > 0.0) ==>
              forall k :: 0 <= k < |ClampAlphas(SortFarToNear(items))| ==> ClampAlphas(SortFarToNear(items))[k].alpha > 0.0
  {
    var sorted := SortFarToNear(items);
    var r := ClampAlphas(sorted);
    forall k | 0 <= k < |r|
      ensures r[k].depth == sorted[k].depth && r[k].alpha == Clamp01(sorted[k].alpha)
      ensures sorted[k] in items
    {
      assert sorted[k] in multiset(items);
    }
  }

  // ----------------------------------------------------------------- bubbles

  /** Go's float-to-integer conversion truncates toward zero, whatever the sign. */
  function Truncate(x: real): int {
    if x >= 0.0 then x.Floor else -((-x).Floor)
  }

  /** `uint8(255 * alpha)`. Out-of-range float conversions are implementation-
      dependent in Go; this follows amd64, which truncates to an integer and keeps
      the low byte. */
  function ByteAlpha(alpha: real): (r: int)
    ensures IsByte(r)
    ensures 0.0 <= alpha <= 1.0 ==> r == (255.0 * alpha).Floor
  {
    ToU8(Truncate(255.0 * alpha))
  }

  /** For an alpha in [0,1], bubbles skips exactly the items with alpha below 10/255. */
  lemma SkipThreshold(alpha: real)
    requires 0.0 <= alpha <= 1.0
    ensures ByteAlpha(alpha) < 10 <==> alpha < 10.0 / 255.0
  {
  }

  /** `if a < 10 { continue }`: the items bubbles actually draws. */
  function KeepVisibleAlpha(items: seq<DrawItem>): (r: seq<DrawItem>)
    ensures |r| <= |items|
    ensures forall k :: 0 <= k < |r| ==> ByteAlpha(r[k].alpha) >= 10
  {
    if |items| == 0 then []
    else
      var last := items[|items| - 1];
      var rest := KeepVisibleAlpha(items[..|items| - 1]);
      if ByteAlpha(last.alpha) >= 10 then rest + [last] else rest
  }

  /** Exactly the items with a byte alpha of at least 10 are kept. */
  lemma {:induction false} KeepVisibleAlphaMembers(items: seq<DrawItem>)
    ensures forall k :: 0 <= k < |KeepVisibleAlpha(items)| ==> KeepVisibleAlpha(items)[k] in items
    ensures forall k :: 0 <= k < |items| && ByteAlpha(items[k].alpha) >= 10 ==> items[k] in KeepVisibleAlpha(items)
    decreases |items|
  {
    if |items| > 0 {
      var init := items[..|items| - 1];
      KeepVisibleAlphaMembers(init);
      assert items == init + [items[|items| - 1]];
    }
  }

  /** The skip keeps every copy of an item with a byte alpha of at least 10 and no
      copy of any other item. */
  lemma {:induction false} KeepVisibleAlphaCount(items: seq<DrawItem>, x: DrawItem)
    ensures multiset(KeepVisibleAlpha(items))[x] == if ByteAlpha(x.alpha) >= 10 then multiset(items)[x] else 0
    decreases |items|
  {
    if |items| > 0 {
      var init, last := items[..|items| - 1], items[|items| - 1];
      KeepVisibleAlphaCount(init, x);
      KeepVisibleAlphaSnoc(items);
    }
  }

  /** One more item at the end adds it to the kept items exactly when it is shown. */
  lemma {:induction false} KeepVisibleAlphaSnoc(items: seq<DrawItem>)
    requires |items| > 0
    ensures var init, last := items[..|items| - 1], items[|items| - 1];
            && multiset(items) == multiset(init) + multiset{last}
            && multiset(KeepVisibleAlpha(items))
               == multiset(KeepVisibleAlpha(init)) + (if ByteAlpha(last.alpha) >= 10 then multiset{last} else multiset{})
  {
    var init, last := items[..|items| - 1], items[|items| - 1];
    assert items == init + [last];
  }

  /** Items with equal multisets keep equal multisets through the skip. */
  lemma {:induction false} KeepVisibleAlphaPerm(a: seq<DrawItem>, b: seq<DrawItem>)
    requires multiset(a) == multiset(b)
    ensures multiset(KeepVisibleAlpha(a)) == multiset(KeepVisibleAlpha(b))
  {
    forall x: DrawItem
      ensures multiset(KeepVisibleAlpha(a))[x] == multiset(KeepVisibleAlpha(b))[x]
    {
      KeepVisibleAlphaCount(a, x);
      KeepVisibleAlphaCount(b, x);
    }
  }

  /** Skipping items never brings in one nearer than all of them. */
  lemma {:induction false} KeepVisibleAlphaAtLeast(items: seq<DrawItem>, bound: real)
    requires forall k :: 0 <= k < |items| ==> items[k].depth >= bound
    ensures forall k :: 0 <= k < |KeepVisibleAlpha(items)| ==> KeepVisibleAlpha(items)[k].depth >= bound
    decreases |items|
  {
    if |items| > 0 {
      KeepVisibleAlphaAtLeast(items[..|items| - 1], bound);
    }
  }

  /** Appending an item no farther than any other keeps the far-to-near order. */
  lemma SortedSnoc(s: seq<DrawItem>, x: DrawItem)
    requires SortedFarToNear(s)
    requires forall k :: 0 <= k < |s| ==> s[k].depth >= x.depth
    ensures SortedFarToNear(s + [x])
  {
    var r := s + [x];
    forall i, j | 0 <= i < j < |r|
      ensures r[i].depth >= r[j].depth
    {
      assert r[i] == s[i];
      if j < |s| {
        assert r[j] == s[j];
      }
    }
  }

  /** Skipping items keeps the far-to-near order of the rest. */
  lemma {:induction false} KeepVisibleAlphaKeepsOrder(items: seq<DrawItem>)
    requires SortedFarToNear(items)
    ensures SortedFarToNear(KeepVisibleAlpha(items))
    decreases |items|
  {
    if |items| > 0 {
      var n := |items| - 1;
      var init := items[..n];
      var last := items[n];
      assert SortedFarToNear(init);
      KeepVisibleAlphaKeepsOrder(init);
      if ByteAlpha(last.alpha) >= 10 {
        assert forall k :: 0 <= k < n ==> init[k].depth >= last.depth;
        KeepVisibleAlphaAtLeast(init, last.depth);
        SortedSnoc(KeepVisibleAlpha(init), last);
      }
    }
  }

  /** The circles bubbles draws this frame, far to near: every visible particle's
      item with a byte alpha of at least 10, once each, and nothing else. */
  function BubbleDrawList(ms: seq<Mote>, c: Camera): (r: seq<DrawItem>)
    requires PositiveMaxLife(ms)
    ensures |r| <= |CollectItems(ms, c, BubbleStyle)|
    ensures SortedFarToNear(r)
    ensures forall k :: 0 <= k < |r| ==> ByteAlpha(r[k].alpha) >= 10 && r[k].depth > NearClip
    ensures forall it :: it in CollectItems(ms, c, BubbleStyle) && ByteAlpha(it.alpha) >= 10 ==> it in r
    ensures multiset(r) <= multiset(CollectItems(ms, c, BubbleStyle))
    ensures multiset(r) == multiset(KeepVisibleAlpha(CollectItems(ms, c, BubbleStyle)))
  {
    var items := CollectItems(ms, c, BubbleStyle);
    var sorted := SortFarToNear(items);
    KeepVisibleAlphaKeepsOrder(sorted);
    KeepVisibleAlphaOfPerm(sorted, items);
    KeepVisibleAlpha(sorted)
  }

  /** Skipping the items of any permutation of `items` keeps the items of `items`
      with a byte alpha of at least 10, each as often as it occurs there. */
  lemma {:induction false} KeepVisibleAlphaOfPerm(sorted: seq<DrawItem>, items: seq<DrawItem>)
    requires multiset(sorted) == multiset(items)
    ensures forall k :: 0 <= k < |KeepVisibleAlpha(sorted)| ==> KeepVisibleAlpha(sorted)[k] in items
    ensures forall it :: it in items && ByteAlpha(it.alpha) >= 10 ==> it in KeepVisibleAlpha(sorted)
    ensures multiset(KeepVisibleAlpha(sorted)) <= multiset(items)
    ensures multiset(KeepVisibleAlpha(sorted)) == multiset(KeepVisibleAlpha(items))
  {
    KeepVisibleAlphaPerm(sorted, items);
    forall x: DrawItem
      ensures multiset(KeepVisibleAlpha(sorted))[x] <= multiset(items)[x]
    {
      KeepVisibleAlphaCount(sorted, x);
    }
    forall k | 0 <= k < |KeepVisibleAlpha(sorted)|
      ensures KeepVisibleAlpha(sorted)[k] in items
    {
      var x := KeepVisibleAlpha(sorted)[k];
      assert x in multiset(KeepVisibleAlpha(sorted));
    }
    forall it | it in items && ByteAlpha(it.alpha) >= 10
      ensures it in KeepVisibleAlpha(sorted)
    {
      KeepVisibleAlphaCount(sorted, it);
    }
  }
}

=== FILE: envelopes.dfy ===
/** The piecewise-linear colour and alpha curves of the draw passes: the life rate of
    a pooled particle, the smoke fade-in/fade-out envelope (fireworks, smoke), the
    fire fade (fireworks), Concert's depth colour, and NewParticles' life alpha. */
module Envelopes {
  import opened Common

  /** `float64(lifetime) / float64(maxLife)` of a particle being drawn. Only active
      particles are drawn, and they keep 0 <= lifetime < maxLife. */
  function LifeRate(lifetime: int, maxLife: int): (r: real)
    requires 0 <= lifetime < maxLife
    ensures 0.0 <= r < 1.0
    ensures r * maxLife as real == lifetime as real
  {
    var m := maxLife as real;
    var r := lifetime as real / m;
    assert r * m == lifetime as real;
    assert (1.0 - r) * m == m - lifetime as real;
    r
  }

  /** Fade-in over the first fifth of life, plateau, fade-out over the last fifth. */
  function SmokeEnvelope(rate: real): (r: real)
    ensures 0.0 <= rate <= 1.0 ==> 0.0 <= r <= 1.0
    ensures r == 1.0 <==> 0.2 <= rate <= 0.8
    ensures r >= 0.0 <==> 0.0 <= rate <= 1.0
    ensures r == 0.0 <==> rate == 0.0 || rate == 1.0
  {
    if rate < 0.2 then rate / 0.2
    else if rate > 0.8 then (1.0 - rate) / 0.2
    else 1.0
  }

  /** The envelope rises until the plateau ... */
  lemma SmokeEnvelopeRises(a: real, b: real)
    requires a <= b <= 0.8
    ensures SmokeEnvelope(a) <= SmokeEnvelope(b)
  {
  }

  /** ... and falls after it. */
  lemma SmokeEnvelopeFalls(a: real, b: real)
    requires 0.2 <= a <= b
    ensures SmokeEnvelope(b) <= SmokeEnvelope(a)
  {
  }

  /** smoke.main.go scales the envelope by the particle's `baseAlpha`, so the drawn
      alpha of a live particle stays within [0, baseAlpha] and reaches it exactly on
      the plateau. */
  function SmokeAlpha(rate: real, baseAlpha: real): (r: real)
    requires baseAlpha > 0.0
    ensures 0.0 <= rate < 1.0 ==> 0.0 <= r <= baseAlpha
    ensures r == baseAlpha <==> 0.2 <= rate <= 0.8
  {
    SmokeEnvelope(rate) * baseAlpha
  }

  /** `1 - rate^2`: fireworks' fire alpha. */
  function FireAlpha(rate: real): real {
    1.0 - rate * rate
  }

  /** The fire alpha is full at birth and stays in (0,1] over a lifetime. */
  lemma FireAlphaRange(rate: real)
    requires 0.0 <= rate < 1.0
    ensures 0.0 < FireAlpha(rate) <= 1.0
    ensures rate == 0.0 ==> FireAlpha(rate) == 1.0
  {
    if rate > 0.0 {
      MulPositive(rate, rate);
      MulStrictlyMonotone(rate, rate, 1.0);
    }
  }

  /** Older fire is never brighter. */
  lemma FireAlphaFalls(a: real, b: real)
    requires 0.0 <= a <= b
    ensures FireAlpha(b) <= FireAlpha(a)
  {
    assert (b - a) * (b + a) >= 0.0;
    assert b * b - a * a == (b - a) * (b + a);
  }

  /** The alpha fireworks gives a particle of each kind: fire fades, every other
      kind follows the smoke envelope. Either way it lies in [0,1]. */
  function FireworksAlpha(isFire: bool, rate: real): (r: real)
    ensures 0.0 <= rate < 1.0 ==> 0.0 <= r <= 1.0
    ensures isFire && 0.0 <= rate < 1.0 ==> r > 0.0
  {
    if isFire then
      if 0.0 <= rate < 1.0 then FireAlphaRange(rate); FireAlpha(rate) else FireAlpha(rate)
    else SmokeEnvelope(rate)
  }

  /** Concert `depthColor`: `t = clamp((z+2)/4, 0, 1)`, colour (t, 0, 1-t), blue far
      (z <= -2) through purple to red near (z >= 2). */
  function DepthColor(z: real): (r: (real, real, real))
    ensures 0.0 <= r.0 <= 1.0 && r.1 == 0.0 && 0.0 <= r.2 <= 1.0
    ensures r.0 + r.2 == 1.0
    ensures z <= -2.0 ==> r == (0.0, 0.0, 1.0)
    ensures z >= 2.0 ==> r == (1.0, 0.0, 0.0)
    ensures -2.0 <= z <= 2.0 ==> r.0 == (z + 2.0) / 4.0
  {
    var t0 := (z + 2.0) / 4.0;
    var t1 := if t0 < 0.0 then 0.0 else t0;
    var t := if t1 > 1.0 then 1.0 else t1;
    (t, 0.0, 1.0 - t)
  }

  /** Nearer particles are never less red. */
  lemma DepthColorMonotone(far: real, near: real)
    requires far <= near
    ensures DepthColor(far).0 <= DepthColor(near).0
    ensures DepthColor(near).2 <= DepthColor(far).2
  {
  }

  /** The constant `alpha` every NewParticles particle is created with. */
  const RingBaseAlpha: real := 0.6

  /** NewParticles `Particle.Draw`: nothing is drawn once life is used up; otherwise
      the alpha is `0.6 * life/maxLife`, raised to 0 when negative. */
  function RingAlpha(life: int, maxLife: int): (r: Option<real>)
    requires maxLife != 0
    ensures r.None? <==> life <= 0
    ensures r.Some? ==> r.value >= 0.0
    ensures r.Some? && maxLife > 0 ==> r.value * maxLife as real == RingBaseAlpha * life as real
  {
    if life <= 0 then None
    else
      var alpha := RingBaseAlpha * (life as real / maxLife as real);
      Some(if alpha < 0.0 then 0.0 else alpha)
  }

  /** With life and maxLife drawn independently from [60,179], the alpha is not
      bounded by the base alpha: a fresh particle can be drawn at almost three
      times it. */
  lemma RingAlphaCanExceedBase()
    ensures exists life, maxLife :: 60 <= life <= 179 && 60 <= maxLife <= 179 &&
              RingAlpha(life, maxLife).Some? && RingAlpha(life, maxLife).value > RingBaseAlpha
  {
    assert RingAlpha(179, 60).value == 0.6 * (179.0 / 60.0);
  }
}

=== FILE: growing_pool.dfy ===
/** smoke.main.go keeps its particle slice empty at start and grows it lazily:
    allocation reuses the first inactive slot, else appends a new zero-valued slot
    while the slice is below capacity, else fails. Each `Update` makes at most one
    spawn attempt, and only while the slice is below capacity. */
module GrowingPool {
  import opened Common
  import opened Pool
  import opened Lifecycle

  const SmokeCapacity: nat := 8000
  /** `baseAlpha` every smoke particle is created with. */
  const SmokeBaseAlpha: real := 0.8

  predicate SmokeRolls(d: Draw) {
    RollIn(d.lifeRoll, 60) && RollIn(d.redRoll, 0x3f) && RollIn(d.greenRoll, 0x3f) && RollIn(d.blueRoll, 0x3f)
  }

  /** `newParticle(img, x, y)`: active at the emitter point, lifetime 0, maxLife
      `rand.IntN(60) + 240`, each colour channel `uint8(0xc0 + rand.IntN(0x3f))`. */
  function SmokeParticle(x: real, y: real, d: Draw): (p: Particle)
    requires SmokeRolls(d)
    ensures p.active && p.lifetime == 0 && p.kind == Smoke && Live(p)
    ensures p.pos == Vec3(x, y, 0.0)
    ensures 240 <= p.maxLife <= 299
    ensures 0xc0 <= p.color.r <= 0xfe && 0xc0 <= p.color.g <= 0xfe && 0xc0 <= p.color.b <= 0xfe
  {
    Blank.(
      active := true,
      kind := Smoke,
      pos := Vec3(x, y, 0.0),
      vel := d.vel,
      angle := d.angle,
      spin := d.spin,
      baseScale := d.scale,
      maxLife := 240 + d.lifeRoll,
      color := Rgba(ToU8(0xc0 + d.redRoll), ToU8(0xc0 + d.greenRoll), ToU8(0xc0 + d.blueRoll), 0xff))
  }

  lemma AppendBlankCount(pool: seq<Particle>)
    ensures ActiveCount(pool + [Blank]) == ActiveCount(pool)
  {
    assert (pool + [Blank])[..|pool|] == pool;
  }

  /** `allocateParticle` of smoke.main.go: the first inactive slot if there is one;
      otherwise one new zero-valued slot appended while below capacity; otherwise nil. */
  method AllocateOrGrow(pool: seq<Particle>, capacity: nat) returns (grown: seq<Particle>, slot: Option<nat>)
    ensures forall i :: IsFirstInactive(pool, i) ==> grown == pool && slot == Some(i)
    ensures AllActive(pool) && |pool| < capacity ==> grown == pool + [Blank] && slot == Some(|pool|)
    ensures AllActive(pool) && |pool| >= capacity ==> grown == pool && slot.None?
    ensures |pool| <= capacity ==> |grown| <= capacity
    ensures slot.Some? ==> slot.value < |grown| && !grown[slot.value].active
    ensures |pool| < capacity ==> slot.Some?
    ensures |pool| <= |grown| <= |pool| + 1 && grown[..|pool|] == pool
    ensures forall j :: |pool| <= j < |grown| ==> grown[j] == Blank
    ensures ActiveCount(grown) == ActiveCount(pool)
  {
    slot := AllocateParticle(pool);
    if slot.Some? {
      return pool, slot;
    }
    if |pool| < capacity {
      AppendBlankCount(pool);
      return pool + [Blank], Some(|pool|);
    }
    return pool, None;
  }

  /** The slice after the spawn step of `Update`: untouched unless the guard holds;
      otherwise a fresh smoke particle at the emitter goes into the first inactive
      slot, or into a new slot at the end when every slot is live. */
  function SmokeSpawned(pool: seq<Particle>, emitter: Vec3, coin: bool, d: Draw): seq<Particle>
    requires SmokeRolls(d)
  {
    if !(coin && |pool| < SmokeCapacity) then pool
    else match FirstInactive(pool)
      case Some(i) => pool[i := SmokeParticle(emitter.x, emitter.y, d)]
      case None => pool + [SmokeParticle(emitter.x, emitter.y, d)]
  }

  /** The spawn step of `Update`: `if len(particles) < maxParticles && rand.IntN(3) < 2`
      then allocate and initialise one particle. `coin` is the outcome of the
      `rand.IntN(3) < 2` test. Exactly one particle is activated when the guard
      holds, and the slice grows by at most one slot. */
  method SmokeSpawn(pool: seq<Particle>, emitter: Vec3, coin: bool, d: Draw) returns (r: seq<Particle>)
    requires SmokeRolls(d)
    ensures !(coin && |pool| < SmokeCapacity) ==> r == pool
    ensures coin && |pool| < SmokeCapacity ==> ActiveCount(r) == ActiveCount(pool) + 1
    ensures |pool| <= |r| <= |pool| + 1
    ensures |pool| <= SmokeCapacity ==> |r| <= SmokeCapacity
    ensures forall i :: 0 <= i < |pool| && pool[i].active ==> r[i] == pool[i]
    ensures (forall i :: 0 <= i < |pool| ==> Live(pool[i])) ==> forall i :: 0 <= i < |r| ==> Live(r[i])
    ensures r == SmokeSpawned(pool, emitter, coin, d)
  {
    r := pool;
    if |pool| < SmokeCapacity && coin {
      var grown, slot := AllocateOrGrow(pool, SmokeCapacity);
      var i := slot.value;
      var p := SmokeParticle(emitter.x, emitter.y, d);
      ActivateSlotCount(grown, i, p);
      r := grown[i := p];
    }
  }

  /** The slice after one `Update`: the update pass, without jitter, over the spawned slice. */
  function SmokeTick(pool: seq<Particle>, emitter: Vec3, coin: bool, d: Draw): seq<Particle>
    requires SmokeRolls(d)
  {
    var spawned := SmokeSpawned(pool, emitter, coin, d);
    UpdatePool(spawned, SmokePhysics, None, seq(|spawned|, _ => 0.0))
  }

  /** One `Update` of smoke.main.go: the spawn step, then the update pass (no
      forces, no off-screen recycling) over exactly the spawned slice. The slice
      never exceeds capacity, and the active count grows by at most one per tick. */
  method SmokeUpdate(pool: seq<Particle>, emitter: Vec3, coin: bool, d: Draw) returns (r: seq<Particle>)
    requires SmokeRolls(d)
    ensures |pool| <= |r| <= |pool| + 1
    ensures |pool| <= SmokeCapacity ==> |r| <= SmokeCapacity
    ensures ActiveCount(r) <= ActiveCount(pool) + 1
    ensures !(coin && |pool| < SmokeCapacity) ==> |r| == |pool| && ActiveCount(r) <= ActiveCount(pool)
    ensures (forall i :: 0 <= i < |pool| ==> Live(pool[i])) ==> forall i :: 0 <= i < |r| ==> Live(r[i])
    ensures r == SmokeTick(pool, emitter, coin, d)
  {
    var spawned := SmokeSpawn(pool, emitter, coin, d);
    var jitter := seq(|spawned|, _ => 0.0);
    r := UpdatePool(spawned, SmokePhysics, None, jitter);
    UpdatePoolNeverActivates(spawned, SmokePhysics, None, jitter);
    assert PoolInvariant(spawned, |spawned|) ==> PoolInvariant(r, |spawned|);
  }
}

=== FILE: lifecycle.dfy ===
/** The per-tick update of the pooled demos: `Particle.update` (age, then either
    deactivate or integrate), the off-screen recycling pass of amazing and
    fireworks, and the frame-level invariant that every `Update` keeps. */
module Lifecycle {
  import opened Common
  import opened Pool

  /** Kind-specific forces, applied after the position step:
      vx' = vx * dampX + jitter * jitterScale, vy' = (vy + accelY) * dampY,
      vz' = vz * dampZ. `jitter` is the `rand.Float64()*2 - 1` draw of the tick. */
  datatype Forces = Forces(accelY: real, dampX: real, dampY: real, dampZ: real, jitterScale: real)

  /** smoke.main.go: no forces at all. */
  const NoForces: Forces := Forces(0.0, 1.0, 1.0, 1.0, 0.0)
  /** amazing.main.go, fire: `vy -= 0.015; vx *= 0.998; vy *= 0.999; vz *= 0.994`. */
  const AmazingFire: Forces := Forces(-0.015, 0.998, 0.999, 0.994, 0.0)
  /** amazing.main.go, ember: `vy -= 0.01; vx += jitter * 0.02; vz *= 0.995`. */
  const AmazingEmber: Forces := Forces(-0.01, 1.0, 1.0, 0.995, 0.02)
  /** fireworks.main.go: `vy += 0.05`. */
  const FireworksDrift: Forces := Forces(0.05, 1.0, 1.0, 1.0, 0.0)
  /** animation3.main.go and Concert.main.go: `vy += 0.02; vz *= 0.98`. */
  const DepthDrift: Forces := Forces(0.02, 1.0, 1.0, 0.98, 0.0)

  /** The force table of one demo, selected by particle kind. */
  datatype Physics = Physics(fire: Forces, ember: Forces, smoke: Forces) {
    function For(k: Kind): Forces {
      match k
      case Fire => fire
      case Ember => ember
      case Smoke => smoke
    }
  }

  /** amazing tests `kind == KindFire` and treats everything else as an ember. */
  const AmazingPhysics: Physics := Physics(AmazingFire, AmazingEmber, AmazingEmber)
  const FireworksPhysics: Physics := Physics(FireworksDrift, FireworksDrift, FireworksDrift)
  const DepthPhysics: Physics := Physics(DepthDrift, DepthDrift, DepthDrift)
  const SmokePhysics: Physics := Physics(NoForces, NoForces, NoForces)

  /** Euler step: position by velocity, angle by spin, then the forces. */
  function Integrate(p: Particle, f: Forces, jitter: real): Particle {
    var v := p.vel;
    p.(pos := p.pos.Plus(v),
       angle := p.angle + p.spin,
       vel := Vec3(v.x * f.dampX + jitter * f.jitterScale, (v.y + f.accelY) * f.dampY, v.z * f.dampZ))
  }

  /** `Particle.update`: an inactive particle is untouched; otherwise the lifetime
      grows by one and the particle either deactivates in place (when the new
      lifetime reaches maxLife) or moves. */
  function Update(p: Particle, f: Forces, jitter: real): (q: Particle)
    ensures !p.active ==> q == p
    ensures p.active ==> q.lifetime == p.lifetime + 1 && q.maxLife == p.maxLife && q.kind == p.kind
    ensures p.active ==> (q.active <==> p.lifetime + 1 < p.maxLife)
    ensures p.active && !q.active ==> q.pos == p.pos && q.vel == p.vel && q.angle == p.angle
    ensures q.active ==> q.pos == p.pos.Plus(p.vel) && q.angle == p.angle + p.spin
    ensures Live(p) ==> Live(q)
  {
    if !p.active then p
    else
      var aged := p.(lifetime := p.lifetime + 1);
      if aged.lifetime >= aged.maxLife then aged.(active := false)
      else Integrate(aged, f, jitter)
  }

  /** The off-screen margin: a particle survives the recycling test only while
      minX <= x <= maxX and minY <= y <= maxY. */
  datatype Bounds = Bounds(minX: real, maxX: real, minY: real, maxY: real) {
    predicate Contains(v: Vec3) {
      minX <= v.x <= maxX && minY <= v.y <= maxY
    }
  }

  /** amazing: `x < -200 || x > screenWidth+200 || y < -300 || y > screenHeight+400`, 1280x720. */
  const AmazingBounds: Bounds := Bounds(-200.0, 1480.0, -300.0, 1120.0)
  /** fireworks: `x < -100 || x > screenWidth+100 || y < -200 || y > screenHeight+200`, 640x480. */
  const FireworksBounds: Bounds := Bounds(-100.0, 740.0, -200.0, 680.0)

  /** One iteration of the update pass: `if p.active { p.update(); if outside { p.active = false } }`.
      `bounds` is `None` in the demos without recycling (animation3, Concert, smoke). */
  function StepSlot(p: Particle, f: Forces, jitter: real, bounds: Option<Bounds>): (q: Particle)
    ensures !p.active ==> q == p
    ensures q.active ==> p.active && q.lifetime == p.lifetime + 1 && q.lifetime < q.maxLife
    ensures q.active && bounds.Some? ==> bounds.value.Contains(q.pos)
    ensures p.active && !q.active ==>
              p.lifetime + 1 >= p.maxLife
              || (bounds.Some? && !bounds.value.Contains(p.pos.Plus(p.vel)))
    ensures Live(p) ==> Live(q)
  {
    if !p.active then p
    else
      var u := Update(p, f, jitter);
      if bounds.Some? && !bounds.value.Contains(u.pos) then u.(active := false) else u
  }

  /** The update loop of `Game.Update` over the whole pool. `jitter[i]` is the random
      wobble slot i draws if it is an ember. */
  function UpdatePool(pool: seq<Particle>, phys: Physics, bounds: Option<Bounds>, jitter: seq<real>): (r: seq<Particle>)
    requires |jitter| == |pool|
    ensures |r| == |pool|
    ensures forall i :: 0 <= i < |pool| && !pool[i].active ==> r[i] == pool[i]
    ensures forall i :: 0 <= i < |pool| && r[i].active ==>
              pool[i].active && r[i].lifetime == pool[i].lifetime + 1 && r[i].lifetime < r[i].maxLife
    ensures forall i :: 0 <= i < |pool| && r[i].active && bounds.Some? ==> bounds.value.Contains(r[i].pos)
    ensures forall i :: 0 <= i < |pool| && pool[i].active && !r[i].active ==>
              pool[i].lifetime + 1 >= pool[i].maxLife
              || (bounds.Some? && !bounds.value.Contains(pool[i].pos.Plus(pool[i].vel)))
    ensures forall c: nat :: PoolInvariant(pool, c) ==> PoolInvariant(r, c)
  {
    seq(|pool|, i requires 0 <= i < |pool| => StepSlot(pool[i], phys.For(pool[i].kind), jitter[i], bounds))
  }

  /** The update pass only ever deactivates. */
  lemma {:induction false} UpdatePoolNeverActivates(pool: seq<Particle>, phys: Physics, bounds: Option<Bounds>, jitter: seq<real>)
    requires |jitter| == |pool|
    ensures ActiveCount(UpdatePool(pool, phys, bounds, jitter)) <= ActiveCount(pool)
  {
    ActiveCountMonotone(pool, UpdatePool(pool, phys, bounds, jitter));
  }

  /** One `Update` of a pooled demo: the spawn calls of the tick (clicks, emitters,
      bursts; each one a `SpawnInto`, in call order), then the update pass. */
  function PooledFrame(pool: seq<Particle>, spawned: seq<Particle>, phys: Physics,
                       bounds: Option<Bounds>, jitter: seq<real>): seq<Particle>
    requires |jitter| == |pool|
  {
    UpdatePool(Burst(pool, spawned), phys, bounds, jitter)
  }

  /** Every frame keeps the pool at its capacity and every active particle at
      0 <= lifetime < maxLife, provided the spawned particles start that way. A
      frame ends with at most the particles it started with plus those its spawn
      calls could place. */
  lemma {:induction false} PooledFrameInvariant(pool: seq<Particle>, capacity: nat, spawned: seq<Particle>,
                                                phys: Physics, bounds: Option<Bounds>, jitter: seq<real>)
    requires PoolInvariant(pool, capacity)
    requires forall k :: 0 <= k < |spawned| ==> Live(spawned[k])
    requires |jitter| == |pool|
    ensures PoolInvariant(PooledFrame(pool, spawned, phys, bounds, jitter), capacity)
    ensures (forall k :: 0 <= k < |spawned| ==> spawned[k].active) ==>
              ActiveCount(PooledFrame(pool, spawned, phys, bounds, jitter))
                <= ActiveCount(pool) + Min(|spawned|, FreeCount(pool))
  {
    var b := Burst(pool, spawned);
    UpdatePoolNeverActivates(b, phys, bounds, jitter);
    if forall k :: 0 <= k < |spawned| ==> spawned[k].active {
      BurstActivates(pool, spawned);
    }
    BurstKeepsActive(pool, spawned);
    assert forall i :: 0 <= i < |b| ==> Live(b[i]);
    assert PoolInvariant(b, capacity);
  }
}

=== FILE: pool.dfy ===
/** The fixed-capacity particle pool shared by the pooled demos (amazing, fireworks,
    animation3, Concert): a slice of particle records prefilled with inactive
    slots, a linear-scan allocator that hands out the first inactive slot or
    nothing, and the burst loops built on it. */
module Pool {
  import opened Common

  /** The particle variants the pooled demos use (`PKind`, `ParticleType`). */
  datatype Kind = Fire | Ember | Smoke

  /** One pooled particle. Fields a demo does not have (z, colour, kind) stay at
      their zero value in that demo. */
  datatype Particle = Particle(
    pos: Vec3,
    vel: Vec3,
    angle: real,
    spin: real,
    lifetime: int,
    maxLife: int,
    baseScale: real,
    color: Rgba,
    kind: Kind,
    active: bool)

  /** Go's zero value `Particle{}`: the content of every freshly prefilled slot. */
  const Blank: Particle :=
    Particle(Origin, Origin, 0.0, 0.0, 0, 0, 0.0, Rgba(0, 0, 0, 0), Fire, false)

  /** The lifecycle invariant: an active particle has 0 <= lifetime < maxLife. */
  predicate Live(p: Particle) {
    p.active ==> 0 <= p.lifetime < p.maxLife
  }

  /** The pool has exactly `capacity` slots and every slot keeps the invariant. */
  predicate PoolInvariant(pool: seq<Particle>, capacity: nat) {
    |pool| == capacity && forall i :: 0 <= i < |pool| ==> Live(pool[i])
  }

  predicate AllActive(pool: seq<Particle>) {
    forall i :: 0 <= i < |pool| ==> pool[i].active
  }

  predicate NoneActive(pool: seq<Particle>) {
    forall i :: 0 <= i < |pool| ==> !pool[i].active
  }

  /** Slot `i` is the one a linear scan from the front stops at. */
  predicate IsFirstInactive(pool: seq<Particle>, i: int) {
    && 0 <= i < |pool|
    && !pool[i].active
    && forall j :: 0 <= j < i ==> pool[j].active
  }

  /** Number of active slots. */
  function ActiveCount(pool: seq<Particle>): (n: nat)
    ensures n <= |pool|
  {
    if |pool| == 0 then 0
    else ActiveCount(pool[..|pool| - 1]) + (if pool[|pool| - 1].active then 1 else 0)
  }

  /** Number of slots an allocation could still hand out. */
  function FreeCount(pool: seq<Particle>): nat {
    |pool| - ActiveCount(pool)
  }

  lemma {:induction false} FullIffAllActive(pool: seq<Particle>)
    ensures AllActive(pool) <==> ActiveCount(pool) == |pool|
    decreases |pool|
  {
    if |pool| > 0 {
      var init := pool[..|pool| - 1];
      FullIffAllActive(init);
      assert AllActive(pool) <==> AllActive(init) && pool[|pool| - 1].active;
    }
  }

  lemma {:induction false} EmptyIffNoneActive(pool: seq<Particle>)
    ensures NoneActive(pool) <==> ActiveCount(pool) == 0
    decreases |pool|
  {
    if |pool| > 0 {
      var init := pool[..|pool| - 1];
      EmptyIffNoneActive(init);
      assert NoneActive(pool) <==> NoneActive(init) && !pool[|pool| - 1].active;
    }
  }

  /** If no slot became active, the active count cannot have grown. */
  lemma {:induction false} ActiveCountMonotone(before: seq<Particle>, after: seq<Particle>)
    requires |before| == |after|
    requires forall i :: 0 <= i < |after| && after[i].active ==> before[i].active
    ensures ActiveCount(after) <= ActiveCount(before)
    decreases |before|
  {
    if |before| > 0 {
      ActiveCountMonotone(before[..|before| - 1], after[..|after| - 1]);
    }
  }

  /** Activating one inactive slot raises the count by exactly one. */
  lemma {:induction false} ActivateSlotCount(pool: seq<Particle>, i: nat, p: Particle)
    requires i < |pool| && !pool[i].active && p.active
    ensures ActiveCount(pool[i := p]) == ActiveCount(pool) + 1
    decreases |pool|
  {
    var last := |pool| - 1;
    var q := pool[i := p];
    if i == last {
      assert q[..last] == pool[..last];
    } else {
      assert q[..last] == pool[..last][i := p];
      ActivateSlotCount(pool[..last], i, p);
    }
  }

  /** `NewGame`'s prefill loop: `maxParticles` zero-valued, inactive slots. */
  method Prefill(capacity: nat) returns (pool: seq<Particle>)
    ensures |pool| == capacity
    ensures ActiveCount(pool) == 0 && FreeCount(pool) == capacity
    ensures PoolInvariant(pool, capacity)
  {
    pool := [];
    var i := 0;
    while i < capacity
      invariant 0 <= i <= capacity
      invariant |pool| == i
      invariant NoneActive(pool)
    {
      pool := pool + [Blank];
      i := i + 1;
    }
    EmptyIffNoneActive(pool);
  }

  /** Reference scan: the first inactive slot, or `None` when every slot is active. */
  function FirstInactive(pool: seq<Particle>): (r: Option<nat>)
    ensures r.None? <==> AllActive(pool)
    ensures r.Some? ==> IsFirstInactive(pool, r.value)
  {
    if |pool| == 0 then None
    else if !pool[0].active then Some(0)
    else match FirstInactive(pool[1..])
      case None => None
      case Some(i) => Some(i + 1)
  }

  /** `allocateParticle`: `for _, p := range g.particles { if !p.active { return p } }; return nil`.
      The slot index stands for the returned pointer. */
  method AllocateParticle(pool: seq<Particle>) returns (slot: Option<nat>)
    ensures slot.None? <==> AllActive(pool)
    ensures slot.Some? ==> IsFirstInactive(pool, slot.value)
    ensures slot == FirstInactive(pool)
  {
    var i := 0;
    while i < |pool|
      invariant 0 <= i <= |pool|
      invariant forall j :: 0 <= j < i ==> pool[j].active
    {
      if !pool[i].active {
        return Some(i);
      }
      i := i + 1;
    }
    return None;
  }

  /** One guarded spawn: `if p := g.allocateParticle(); p != nil { *p = spawned }`. */
  function SpawnInto(pool: seq<Particle>, spawned: Particle): (r: seq<Particle>)
    ensures |r| == |pool|
    ensures AllActive(pool) ==> r == pool
    ensures forall i :: IsFirstInactive(pool, i) ==> r == pool[i := spawned]
  {
    match FirstInactive(pool)
    case None => pool
    case Some(i) => pool[i := spawned]
  }

  lemma SpawnIntoCount(pool: seq<Particle>, spawned: Particle)
    requires spawned.active
    ensures ActiveCount(SpawnInto(pool, spawned))
         == ActiveCount(pool) + (if FreeCount(pool) == 0 then 0 else 1)
  {
    FullIffAllActive(pool);
    match FirstInactive(pool)
    case None =>
    case Some(i) => ActivateSlotCount(pool, i, spawned);
  }

  /** Successive spawns, one per element of `spawned`, with no early exit: amazing's
      `spawnBurst`, whose calls after exhaustion allocate nothing. `spawned[k]` is the
      particle the k-th call would write. */
  function Burst(pool: seq<Particle>, spawned: seq<Particle>): (r: seq<Particle>)
    ensures |r| == |pool|
    decreases |spawned|
  {
    if |spawned| == 0 then pool
    else SpawnInto(Burst(pool, spawned[..|spawned| - 1]), spawned[|spawned| - 1])
  }

  /** A burst of n activates exactly min(n, free slots) particles. */
  lemma {:induction false} BurstActivates(pool: seq<Particle>, spawned: seq<Particle>)
    requires forall k :: 0 <= k < |spawned| ==> spawned[k].active
    ensures ActiveCount(Burst(pool, spawned)) == ActiveCount(pool) + Min(|spawned|, FreeCount(pool))
    decreases |spawned|
  {
    if |spawned| > 0 {
      var init := spawned[..|spawned| - 1];
      var b := Burst(pool, init);
      BurstActivates(pool, init);
      SpawnIntoCount(b, spawned[|spawned| - 1]);
    }
  }

  /** Spawning into an exhausted pool is a no-op, however many calls are made. */
  lemma {:induction false} BurstIntoFullPool(pool: seq<Particle>, spawned: seq<Particle>)
    requires AllActive(pool)
    ensures Burst(pool, spawned) == pool
    decreases |spawned|
  {
    if |spawned| > 0 {
      BurstIntoFullPool(pool, spawned[..|spawned| - 1]);
    }
  }

  lemma {:induction false} BurstSplit(pool: seq<Particle>, a: seq<Particle>, b: seq<Particle>)
    ensures Burst(pool, a + b) == Burst(Burst(pool, a), b)
    decreases |b|
  {
    if |b| == 0 {
      assert a + b == a;
    } else {
      assert (a + b)[..|a + b| - 1] == a + b[..|b| - 1];
      BurstSplit(pool, a, b[..|b| - 1]);
    }
  }

  /** A burst never overwrites a live particle, and every slot it changes holds one
      of the spawned particles. */
  lemma {:induction false} BurstKeepsActive(pool: seq<Particle>, spawned: seq<Particle>)
    ensures forall i :: 0 <= i < |pool| && pool[i].active ==> Burst(pool, spawned)[i] == pool[i]
    ensures forall i :: 0 <= i < |pool| ==> Burst(pool, spawned)[i] == pool[i] || Burst(pool, spawned)[i] in spawned
    decreases |spawned|
  {
    if |spawned| > 0 {
      var init := spawned[..|spawned| - 1];
      BurstKeepsActive(pool, init);
      var b := Burst(pool, init);
      forall i | 0 <= i < |pool|
        ensures Burst(pool, spawned)[i] == pool[i] || Burst(pool, spawned)[i] in spawned
      {
        assert b[i] == pool[i] || b[i] in init;
      }
    }
  }

  /** The explosion loops of fireworks, animation3 and Concert:
      `for i := 0; i < n; i++ { if p := allocate(); p != nil { *p = spawned } else { break } }`.
      Stopping at the first failed allocation yields the same pool as the
      no-early-exit burst, and activates min(n, free) particles. */
  method SpawnExplosion(pool: seq<Particle>, spawned: seq<Particle>) returns (r: seq<Particle>)
    ensures |r| == |pool|
    ensures (forall k :: 0 <= k < |spawned| ==> spawned[k].active) ==>
              ActiveCount(r) == ActiveCount(pool) + Min(|spawned|, FreeCount(pool))
    ensures r == Burst(pool, spawned)
  {
    r := pool;
    var i := 0;
    while i < |spawned|
      invariant 0 <= i <= |spawned|
      invariant r == Burst(pool, spawned[..i])
    {
      var slot := AllocateParticle(r);
      if slot.None? {
        BurstSplit(pool, spawned[..i], spawned[i..]);
        assert spawned[..i] + spawned[i..] == spawned;
        BurstIntoFullPool(r, spawned[i..]);
        break;
      }
      assert spawned[..i + 1][..i] == spawned[..i];
      r := r[slot.value := spawned[i]];
      i := i + 1;
    }
    if i == |spawned| {
      assert spawned[..i] == spawned;
    }
    if forall k :: 0 <= k < |spawned| ==> spawned[k].active {
      BurstActivates(pool, spawned);
    }
  }
}

=== FILE: projection.dfy ===
/** Camera rotation and perspective projection of the 3D cloud demos
    (advanced.particles `projected`, bubbles `Project`). The sines and cosines of
    the camera angles are inputs. */
module Projection {
  import opened Common

  /** The four trigonometric values of a camera pose (yaw about Y, pitch about X). */
  datatype Camera = Camera(sinYaw: real, cosYaw: real, sinPitch: real, cosPitch: real)

  /** Sines and cosines of real angles. */
  predicate Unit(c: Camera) {
    c.sinYaw * c.sinYaw + c.cosYaw * c.cosYaw == 1.0 &&
    c.sinPitch * c.sinPitch + c.cosPitch * c.cosPitch == 1.0
  }

  /** Distance the camera sits behind the origin (`z2 += 600`). */
  const CameraOffset: real := 600.0
  /** Points at this depth or nearer are not drawn (`z2 <= 10`). */
  const NearClip: real := 10.0
  const FocalLength: real := 450.0
  /** Screen centre of the 1024x768 window. */
  const CenterX: real := 512.0
  const CenterY: real := 384.0

  function SquaredNorm(v: Vec3): real {
    v.x * v.x + v.y * v.y + v.z * v.z
  }

  /** Rotation about Y by the yaw, then about X by the pitch; the result is
      (x1, y1, z2) before the camera offset. */
  function Rotate(p: Vec3, c: Camera): (r: Vec3)
    ensures Unit(c) ==> SquaredNorm(r) == SquaredNorm(p)
  {
    var x1 := p.x * c.cosYaw + p.z * c.sinYaw;
    var z1 := -p.x * c.sinYaw + p.z * c.cosYaw;
    var y1 := p.y * c.cosPitch - z1 * c.sinPitch;
    var z2 := p.y * c.sinPitch + z1 * c.cosPitch;
    if Unit(c) then
      PlaneRotationKeepsNorm(p.x, p.z, c.sinYaw, c.cosYaw);
      PlaneRotationKeepsNorm(p.y, -z1, c.sinPitch, c.cosPitch);
      Vec3(x1, y1, z2)
    else Vec3(x1, y1, z2)
  }

  /** A planar rotation by a unit (cos, sin) pair keeps the squared length. */
  lemma PlaneRotationKeepsNorm(a: real, b: real, s: real, c: real)
    requires s * s + c * c == 1.0
    ensures (a * c + b * s) * (a * c + b * s) + (-a * s + b * c) * (-a * s + b * c) == a * a + b * b
  {
    calc {
      (a * c + b * s) * (a * c + b * s) + (-a * s + b * c) * (-a * s + b * c);
      a * a * (c * c + s * s) + b * b * (s * s + c * c);
      a * a + b * b;
    }
  }

  /** The outcome of a projection: hidden behind the near plane (Go returns
      zeros and `false`, keeping the depth), or visible on screen. */
  datatype Projected =
    | Hidden(depth: real)
    | Visible(sx: real, sy: real, scale: real, depth: real)

  /** Perspective projection with focal length 450 about the screen centre.
      `scaleMul` is what the demo multiplies `focalLength/z2` by for the sprite
      size: `2 * baseScale` in advanced.particles, `baseSize * 3` in bubbles. The result is
      visible exactly when the depth lies beyond the near plane; then the depth
      is positive, the scale is the multiplier shrunk by the depth, and the
      screen offset from the centre is the rotated coordinate shrunk the same way. */
  function Project(p: Vec3, c: Camera, scaleMul: real): (r: Projected)
    ensures r.depth == Rotate(p, c).z + CameraOffset
    ensures r.Visible? <==> r.depth > NearClip
    ensures r.Visible? ==> r.depth > 0.0
    ensures r.Visible? ==> r.scale * r.depth == scaleMul * FocalLength
    ensures r.Visible? ==> (r.sx - CenterX) * r.depth == Rotate(p, c).x * FocalLength
    ensures r.Visible? ==> (r.sy - CenterY) * r.depth == Rotate(p, c).y * FocalLength
  {
    var q := Rotate(p, c);
    var z2 := q.z + CameraOffset;
    if z2 <= NearClip then Hidden(z2)
    else
      var f := FocalLength / z2;
      assert f * z2 == FocalLength;
      Visible(q.x * f + CenterX, q.y * f + CenterY, scaleMul * f, z2)
  }

  /** A point closer to the camera centre than the offset minus the near plane is
      always visible, whatever the camera pose: the cloud of radius 220 that both
      demos spawn therefore starts entirely in front of the near plane. */
  lemma NearOriginVisible(p: Vec3, c: Camera, scaleMul: real)
    requires Unit(c)
    requires SquaredNorm(p) < (CameraOffset - NearClip) * (CameraOffset - NearClip)
    ensures Project(p, c, scaleMul).Visible?
  {
    var q := Rotate(p, c);
    assert SquaredNorm(q) == SquaredNorm(p);
    assert q.z * q.z <= SquaredNorm(q);
  }
}

=== FILE: spawning.dfy ===
/** Spawn policies of the pooled demos: the per-demo particle constructors (with
    the ranges their random rolls give), amazing's `spawnAt`/`spawnBurst` and its
    per-emitter and per-frame caps, fireworks' fixed-interval `Emitter.spawn`, and
    the explosion bursts that stop at the first failed allocation. */
module Spawning {
  import opened Common
  import opened Pool

  // ---------------------------------------------------------------- amazing

  const AmazingCapacity: nat := 14000
  /** Per-emitter cap on the spawn target of one tick. */
  const TargetCap: int := 250
  /** `spawnPerFrame`: cap on emitter-driven spawn attempts per tick. */
  const SpawnPerFrame: int := 200

  /** Span of the `rand.Intn` roll for `maxLife` in `spawnAt`. */
  function AmazingLifeSpan(kind: Kind): int {
    if kind == Fire then 50 else 200
  }

  /** The particle `spawnAt(x, y, kind)` writes into its slot: a reset record,
      active, of the given kind, lifetime 0, with maxLife 30 + Intn(50) for fire
      and 120 + Intn(200) otherwise. */
  function AmazingParticle(x: real, y: real, kind: Kind, d: Draw): (p: Particle)
    requires RollIn(d.lifeRoll, AmazingLifeSpan(kind))
    ensures p.active && p.kind == kind && p.lifetime == 0
    ensures kind == Fire ==> 30 <= p.maxLife <= 79
    ensures kind != Fire ==> 120 <= p.maxLife <= 319
    ensures Live(p)
  {
    Blank.(
      active := true,
      kind := kind,
      pos := Vec3(x + d.offset.x, y + d.offset.y, d.offset.z),
      vel := d.vel,
      angle := d.angle,
      spin := d.spin,
      baseScale := d.scale,
      maxLife := (if kind == Fire then 30 else 120) + d.lifeRoll)
  }

  /** `spawnAt`: with an exhausted pool nothing changes; otherwise exactly the first
      inactive slot is replaced by an active particle of the requested kind. */
  function SpawnAt(pool: seq<Particle>, x: real, y: real, kind: Kind, d: Draw): (r: seq<Particle>)
    requires RollIn(d.lifeRoll, AmazingLifeSpan(kind))
    ensures |r| == |pool|
    ensures AllActive(pool) ==> r == pool
    ensures forall i :: IsFirstInactive(pool, i) ==>
              && r[i].active && r[i].kind == kind && r[i].lifetime == 0
              && (if kind == Fire then 30 <= r[i].maxLife <= 79 else 120 <= r[i].maxLife <= 319)
              && (forall j :: 0 <= j < |pool| && j != i ==> r[j] == pool[j])
  {
    SpawnInto(pool, AmazingParticle(x, y, kind, d))
  }

  predicate FireDraws(draws: seq<Draw>, span: int) {
    forall k :: 0 <= k < |draws| ==> RollIn(draws[k].lifeRoll, span)
  }

  /** `spawnBurst(x, y, count)`: `count` fire spawns at one point, no early exit.
      It activates exactly min(count, free) particles; the calls made after the
      pool is exhausted change nothing. */
  function SpawnBurst(pool: seq<Particle>, x: real, y: real, draws: seq<Draw>): (r: seq<Particle>)
    requires FireDraws(draws, 50)
    ensures |r| == |pool|
    ensures ActiveCount(r) == ActiveCount(pool) + Min(|draws|, FreeCount(pool))
    ensures AllActive(pool) ==> r == pool
  {
    var spawned := seq(|draws|, k requires 0 <= k < |draws| => AmazingParticle(x, y, Fire, draws[k]));
    BurstActivates(pool, spawned);
    if AllActive(pool) then BurstIntoFullPool(pool, spawned); Burst(pool, spawned)
    else Burst(pool, spawned)
  }

  /** `if target > 250 { target = 250 }`. */
  function CapTarget(target: int): (r: int)
    ensures r <= TargetCap
    ensures r <= target
    ensures target <= TargetCap ==> r == target
  {
    if target > TargetCap then TargetCap else target
  }

  function Sum(xs: seq<nat>): nat {
    if |xs| == 0 then 0 else Sum(xs[..|xs| - 1]) + xs[|xs| - 1]
  }

  lemma SumSnoc(xs: seq<nat>, x: nat)
    ensures Sum(xs + [x]) == Sum(xs) + x
  {
    assert (xs + [x])[..|xs|] == xs;
  }

  /** Reference for the per-emitter spawn counts of one frame: emitter by emitter,
      its capped target, or what is left of the frame budget if that is less. */
  function BudgetedAttempts(targets: seq<int>): (r: seq<nat>)
    ensures |r| == |targets| && Sum(r) <= SpawnPerFrame
  {
    if |targets| == 0 then []
    else
      var n := |targets| - 1;
      var prev := BudgetedAttempts(targets[..n]);
      var here := Min(Max(0, CapTarget(targets[n])), SpawnPerFrame - Sum(prev));
      SumSnoc(prev, here);
      prev + [here]
  }

  /** No emitter spawns more than its capped target. */
  lemma {:induction false} BudgetedAttemptsCapped(targets: seq<int>)
    ensures forall k :: 0 <= k < |targets| ==>
              BudgetedAttempts(targets)[k] <= Max(0, CapTarget(targets[k]))
    decreases |targets|
  {
    if |targets| > 0 {
      var n := |targets| - 1;
      BudgetedAttemptsCapped(targets[..n]);
      assert BudgetedAttempts(targets)[..n] == BudgetedAttempts(targets[..n]);
    }
  }

  /** An emitter falls short of its capped target only when the frame budget is
      spent by the end of the frame. */
  lemma {:induction false} BudgetedAttemptsShortfall(targets: seq<int>)
    ensures forall k ::
              (0 <= k < |targets| && BudgetedAttempts(targets)[k] < Max(0, CapTarget(targets[k]))) ==>
              Sum(BudgetedAttempts(targets)) == SpawnPerFrame
    decreases |targets|
  {
    if |targets| > 0 {
      var n := |targets| - 1;
      var prev := BudgetedAttempts(targets[..n]);
      var r := BudgetedAttempts(targets);
      BudgetedAttemptsShortfall(targets[..n]);
      assert r[..n] == prev;
      SumSnoc(prev, r[n]);
      forall k | 0 <= k < n && r[k] < Max(0, CapTarget(targets[k]))
        ensures Sum(r) == SpawnPerFrame
      {
        assert prev[k] == r[k];
        assert targets[..n][k] == targets[k];
      }
    }
  }

  /** Once an emitter falls short, every later emitter spawns nothing. */
  lemma {:induction false} BudgetedAttemptsStop(targets: seq<int>)
    ensures forall k, j ::
              (0 <= k < j < |targets| && BudgetedAttempts(targets)[k] < Max(0, CapTarget(targets[k]))) ==>
              BudgetedAttempts(targets)[j] == 0
    decreases |targets|
  {
    if |targets| > 0 {
      var n := |targets| - 1;
      var prev := BudgetedAttempts(targets[..n]);
      var r := BudgetedAttempts(targets);
      BudgetedAttemptsStop(targets[..n]);
      BudgetedAttemptsShortfall(targets[..n]);
      assert r[..n] == prev;
      forall k, j | 0 <= k < j < |targets| && r[k] < Max(0, CapTarget(targets[k]))
        ensures r[j] == 0
      {
        assert prev[k] == r[k];
        assert targets[..n][k] == targets[k];
        if j < n {
          assert prev[j] == r[j];
        }
      }
    }
  }

  /** How many `spawnAt` calls each emitter makes in one `Update`:
      `for i := 0; i < target && totalSpawns < spawnPerFrame; i++ { spawnAt(...); totalSpawns++ }`,
      with `target` already capped per emitter. Surprise bursts are not counted. */
  method EmitterSpawnCounts(targets: seq<int>) returns (attempts: seq<nat>)
    ensures |attempts| == |targets| && Sum(attempts) <= SpawnPerFrame
    ensures attempts == BudgetedAttempts(targets)
  {
    attempts := [];
    var total := 0;
    var e := 0;
    while e < |targets|
      invariant 0 <= e <= |targets|
      invariant attempts == BudgetedAttempts(targets[..e])
      invariant total == Sum(attempts) <= SpawnPerFrame
    {
      var i := EmitterRun(CapTarget(targets[e]), total);
      assert targets[..e + 1][..e] == targets[..e];
      SumSnoc(attempts, i);
      total := total + i;
      attempts := attempts + [i];
      e := e + 1;
    }
    assert targets[..e] == targets;
  }

  /** One emitter's inner loop: it spawns until its target is met or the frame
      budget, of which `spent` is used, runs out. */
  method EmitterRun(target: int, spent: nat) returns (count: nat)
    requires spent <= SpawnPerFrame
    ensures count == Min(Max(0, target), SpawnPerFrame - spent)
  {
    var total := spent;
    count := 0;
    while count < target && total < SpawnPerFrame
      invariant count <= Max(0, target)
      invariant total == spent + count <= SpawnPerFrame
    {
      total := total + 1;
      count := count + 1;
    }
  }

  // -------------------------------------------------------------- fireworks

  const FireworksCapacity: nat := 10000
  const FireworksExplosionSize: nat := 500

  /** Span of the `maxLife` roll: `rand.Intn(60) + 240` for smoke, `rand.Intn(30) + 45` for fire. */
  function FireworksLifeSpan(kind: Kind): int {
    if kind == Smoke then 60 else 30
  }

  /** The rolls `newParticle` consumes for a particle of `kind` are in range. */
  predicate FireworksRolls(kind: Kind, d: Draw) {
    && RollIn(d.lifeRoll, FireworksLifeSpan(kind))
    && (kind == Smoke ==> RollIn(d.redRoll, 0x3f) && RollIn(d.greenRoll, 0x3f) && RollIn(d.blueRoll, 0x3f))
  }

  /** `newParticle(x, y, pType)` of fireworks. `ParticleType` has only smoke and fire,
      hence the first precondition. Smoke lives 240..299 ticks with each colour
      channel `uint8(0xc0 + rand.Intn(0x3f))`; fire lives 45..74 ticks and is orange. */
  function FireworksParticle(x: real, y: real, kind: Kind, d: Draw): (p: Particle)
    requires kind != Ember
    requires FireworksRolls(kind, d)
    ensures p.active && p.lifetime == 0 && p.kind == kind && Live(p)
    ensures kind == Smoke ==>
              && 240 <= p.maxLife <= 299
              && 0xc0 <= p.color.r <= 0xfe && 0xc0 <= p.color.g <= 0xfe && 0xc0 <= p.color.b <= 0xfe
              && p.color.a == 0xff
    ensures kind == Fire ==> 45 <= p.maxLife <= 74 && p.color == Rgba(0xff, 0x90, 0x00, 0xff)
  {
    var base := Blank.(
      active := true,
      kind := kind,
      pos := Vec3(x + d.offset.x, y + d.offset.y, 0.0),
      vel := d.vel,
      angle := d.angle,
      spin := d.spin,
      baseScale := d.scale);
    if kind == Smoke then
      base.(maxLife := 240 + d.lifeRoll,
            color := Rgba(ToU8(0xc0 + d.redRoll), ToU8(0xc0 + d.greenRoll), ToU8(0xc0 + d.blueRoll), 0xff))
    else
      base.(maxLife := 45 + d.lifeRoll, color := Rgba(0xff, 0x90, 0x00, 0xff))
  }

  /** A fixed-interval emitter: spawns every `rate` ticks, counted by `counter`. */
  datatype Emitter = Emitter(pos: Vec3, rate: int, kind: Kind, counter: nat)

  /** `Emitter.spawn`: always advances the counter, normalises a non-positive rate
      to 1, and only when the new counter is a multiple of the rate makes two
      spawn attempts (no early exit), which activate min(2, free) particles. */
  function EmitterSpawn(e: Emitter, pool: seq<Particle>, d1: Draw, d2: Draw): (r: (Emitter, seq<Particle>))
    requires e.kind != Ember
    requires FireworksRolls(e.kind, d1) && FireworksRolls(e.kind, d2)
    ensures r.0.counter == e.counter + 1
    ensures r.0.rate >= 1 && (e.rate >= 1 ==> r.0.rate == e.rate) && (e.rate <= 0 ==> r.0.rate == 1)
    ensures r.0.pos == e.pos && r.0.kind == e.kind
    ensures |r.1| == |pool|
    ensures r.0.counter % r.0.rate != 0 ==> r.1 == pool
    ensures ActiveCount(r.1) == ActiveCount(pool) + (if r.0.counter % r.0.rate == 0 then Min(2, FreeCount(pool)) else 0)
  {
    var rate := if e.rate <= 0 then 1 else e.rate;
    var next := e.(counter := e.counter + 1, rate := rate);
    if next.counter % rate != 0 then (next, pool)
    else
      var spawned := [FireworksParticle(e.pos.x, e.pos.y, e.kind, d1), FireworksParticle(e.pos.x, e.pos.y, e.kind, d2)];
      BurstActivates(pool, spawned);
      (next, Burst(pool, spawned))
  }

  /** The particles one fireworks explosion at (x, y) tries to place, in call order. */
  function FireworksBlast(x: real, y: real, draws: seq<Draw>): (s: seq<Particle>)
    requires forall k :: 0 <= k < |draws| ==> FireworksRolls(Fire, draws[k])
    ensures |s| == |draws|
    ensures forall k :: 0 <= k < |s| ==> s[k] == FireworksParticle(x, y, Fire, draws[k])
  {
    seq(|draws|, k requires 0 <= k < |draws| => FireworksParticle(x, y, Fire, draws[k]))
  }

  /** fireworks' `spawnExplosion`: 500 fire particles at a point, stopping at the
      first failed allocation. `draws[k].vel` is the blast velocity that overwrites
      the velocity `newParticle` chose. Only inactive slots are written, each with
      an active fire particle living 45..74 ticks. */
  method FireworksExplosion(pool: seq<Particle>, x: real, y: real, draws: seq<Draw>) returns (r: seq<Particle>)
    requires |draws| == FireworksExplosionSize
    requires forall k :: 0 <= k < |draws| ==> FireworksRolls(Fire, draws[k])
    ensures |r| == |pool|
    ensures ActiveCount(r) == ActiveCount(pool) + Min(FireworksExplosionSize, FreeCount(pool))
    ensures forall i :: 0 <= i < |pool| && pool[i].active ==> r[i] == pool[i]
    ensures forall i :: 0 <= i < |pool| && r[i] != pool[i] ==>
              r[i].active && r[i].kind == Fire && r[i].lifetime == 0 && 45 <= r[i].maxLife <= 74
    ensures r == Burst(pool, FireworksBlast(x, y, draws))
  {
    var spawned := FireworksBlast(x, y, draws);
    r := SpawnExplosion(pool, spawned);
    BurstKeepsActive(pool, spawned);
  }

  // --------------------------------------------------- animation3, Concert

  const DepthCapacity: nat := 8000
  const DepthExplosionSize: nat := 600

  /** `newFireParticle(x, y)` of animation3 and Concert: active, lifetime 0,
      maxLife `rand.Intn(40) + 40`, depth z drawn in [-1, 1). */
  function DepthFireParticle(x: real, y: real, d: Draw): (p: Particle)
    requires RollIn(d.lifeRoll, 40)
    ensures p.active && p.lifetime == 0 && p.kind == Fire && Live(p)
    ensures 40 <= p.maxLife <= 79
  {
    Blank.(
      active := true,
      pos := Vec3(x + d.offset.x, y + d.offset.y, d.offset.z),
      vel := d.vel,
      angle := d.angle,
      spin := d.spin,
      baseScale := d.scale,
      maxLife := 40 + d.lifeRoll)
  }

  /** The particles one animation3 or Concert explosion at (x, y) tries to place,
      in call order. */
  function DepthBlast(x: real, y: real, draws: seq<Draw>): (s: seq<Particle>)
    requires FireDraws(draws, 40)
    ensures |s| == |draws|
    ensures forall k :: 0 <= k < |s| ==> s[k] == DepthFireParticle(x, y, draws[k])
  {
    seq(|draws|, k requires 0 <= k < |draws| => DepthFireParticle(x, y, draws[k]))
  }

  /** `spawnExplosion` of animation3 and Concert: 600 particles, stopping at the first
      failed allocation. */
  method DepthExplosion(pool: seq<Particle>, x: real, y: real, draws: seq<Draw>) returns (r: seq<Particle>)
    requires |draws| == DepthExplosionSize
    requires FireDraws(draws, 40)
    ensures |r| == |pool|
    ensures ActiveCount(r) == ActiveCount(pool) + Min(DepthExplosionSize, FreeCount(pool))
    ensures forall i :: 0 <= i < |pool| && pool[i].active ==> r[i] == pool[i]
    ensures forall i :: 0 <= i < |pool| && r[i] != pool[i] ==>
              r[i].active && r[i].lifetime == 0 && 40 <= r[i].maxLife <= 79
    ensures r == Burst(pool, DepthBlast(x, y, draws))
  {
    var spawned := DepthBlast(x, y, draws);
    r := SpawnExplosion(pool, spawned);
    BurstKeepsActive(pool, spawned);
  }
}

=== FILE: zorder.dfy ===
/** animation3's painter's order: gather the active particles of the pool, then sort
    them ascending by z with a nested exchange loop
    (`for i; for j > i; if a[i].z > a[j].z { swap }`). */
module ZOrder {
  import opened Common
  import opened Pool

  /** The active particles, in pool order. */
  function ActiveParticles(pool: seq<Particle>): (r: seq<Particle>)
    ensures |r| == ActiveCount(pool)
    ensures forall k :: 0 <= k < |r| ==> r[k].active && r[k] in pool
    ensures forall i :: 0 <= i < |pool| && pool[i].active ==> pool[i] in r
  {
    if |pool| == 0 then []
    else
      var init := pool[..|pool| - 1];
      var last := pool[|pool| - 1];
      assert pool == init + [last];
      ActiveParticles(init) + (if last.active then [last] else [])
  }

  /** The active particles as optional values, one per slot. */
  function ActiveOptions(pool: seq<Particle>): (r: seq<Option<Particle>>)
    ensures |r| == |pool|
  {
    seq(|pool|, i requires 0 <= i < |pool| => if pool[i].active then Some(pool[i]) else None)
  }

  lemma {:induction false} ActiveParticlesArePresent(pool: seq<Particle>)
    ensures ActiveParticles(pool) == Present(ActiveOptions(pool))
    decreases |pool|
  {
    if |pool| > 0 {
      var n := |pool| - 1;
      ActiveParticlesArePresent(pool[..n]);
      assert ActiveOptions(pool)[..n] == ActiveOptions(pool[..n]);
    }
  }

  /** `ActiveParticles` holds one entry per active slot, in slot order: `idx` lists
      the slots, increasing, and covers exactly the active ones. */
  lemma ActiveParticlesExactly(pool: seq<Particle>) returns (idx: seq<nat>)
    ensures |idx| == |ActiveParticles(pool)|
    ensures forall k :: 0 <= k < |idx| ==> idx[k] < |pool| && ActiveParticles(pool)[k] == pool[idx[k]]
    ensures forall k, l :: 0 <= k < l < |idx| ==> idx[k] < idx[l]
    ensures forall i :: 0 <= i < |pool| ==> (pool[i].active <==> i in idx)
  {
    ActiveParticlesArePresent(pool);
    idx := PresentExactly(ActiveOptions(pool));
  }

  predicate SortedByZ(s: seq<Particle>) {
    forall i, j :: 0 <= i < j < |s| ==> s[i].pos.z <= s[j].pos.z
  }

  /** The exchange sort of animation3 `Draw`: returns a permutation of its input in
      ascending z. */
  method ExchangeSortByZ(s: seq<Particle>) returns (r: seq<Particle>)
    ensures multiset(r) == multiset(s)
    ensures SortedByZ(r)
  {
    r := s;
    var i := 0;
    while i < |r|
      invariant 0 <= i <= |r| == |s|
      invariant multiset(r) == multiset(s)
      invariant forall p, q :: 0 <= p < q < i ==> r[p].pos.z <= r[q].pos.z
      invariant forall p, q :: 0 <= p < i <= q < |r| ==> r[p].pos.z <= r[q].pos.z
    {
      var j := i + 1;
      while j < |r|
        invariant i + 1 <= j <= |r| == |s|
        invariant multiset(r) == multiset(s)
        invariant forall p, q :: 0 <= p < q < i ==> r[p].pos.z <= r[q].pos.z
        invariant forall p, q :: 0 <= p < i <= q < |r| ==> r[p].pos.z <= r[q].pos.z
        invariant forall q :: i < q < j ==> r[i].pos.z <= r[q].pos.z
      {
        if r[i].pos.z > r[j].pos.z {
          r := Swap(r, i, j);
        }
        j := j + 1;
      }
      i := i + 1;
    }
  }

  /** Exchanging two entries permutes the sequence. */
  function Swap(s: seq<Particle>, i: nat, j: nat): (r: seq<Particle>)
    requires i < j < |s|
    ensures |r| == |s| && r[i] == s[j] && r[j] == s[i]
    ensures forall k :: 0 <= k < |s| && k != i && k != j ==> r[k] == s[k]
    ensures multiset(r) == multiset(s)
  {
    s[i := s[j]][j := s[i]]
  }

  /** The painter's list animation3 draws: exactly the active particles, far (low z)
      to near. */
  method DepthDrawOrder(pool: seq<Particle>) returns (r: seq<Particle>)
    ensures SortedByZ(r)
    ensures |r| == ActiveCount(pool)
    ensures forall k :: 0 <= k < |r| ==> r[k].active
    ensures forall i :: 0 <= i < |pool| && pool[i].active ==> pool[i] in r
    ensures multiset(r) == multiset(ActiveParticles(pool))
  {
    var active := ActiveParticles(pool);
    r := ExchangeSortByZ(active);
    assert |r| == |multiset(r)| == |multiset(active)| == |active|;
    assert forall k :: 0 <= k < |r| ==> r[k] in multiset(active);
    assert forall x :: x in active ==> x in multiset(r);
  }
}
